=== FILE: README.md ===
# Critical density of an interstellar species

This project models the data pipeline in `utils/utils.py`, which computes the
critical density of a molecular or atomic species. For a fixed upper level
`nu`, the critical density at a temperature is the total radiative
de-excitation rate of the level (the sum of its Einstein A-coefficients)
divided by the total collisional de-excitation rate. That rate is the sum,
over every collision partner, of its rate coefficients out of `nu` weighted by
the partner's fractional abundance in the chosen kind of medium.

The pipeline has five steps, and each is one Dafny module:

- `Lines`: `read_lines` finds the single radiative-transition file of the species. It reads its row count from the first line and builds a table of typed columns; cells the data lines have beyond the header's labels become the row index. Labels are shifted one place left with `unit` appended, `;` is stripped from the text columns, and the path is tagged in a `file` column.
- `Einstein`: `compute_sum_einstein_coefs` finds the `A<letters>(s-1)` column and sums it over the transitions leaving `nu`.
- `Collisions`: `read_collisions` reads every collision file of the species. From each it takes the preamble row count (line 4) and the temperature header (line 8), then the numeric rows. A stray leading column is dropped, and each row is tagged with the collider named in the path. The per-file tables are stacked, and their temperature columns are aligned on the sorted union of all temperatures.
- `Interpolation`: `process_collisions` fills missing rates linearly between the nearest known values on both sides of the same row. It then drops every temperature column that still has a gap.
- `CriticalDensity`: `compute_critical_density` selects the rows of `nu` and sums them per collider. It joins them with the abundance table on the collider name, weights each collider by its abundance and sums over colliders. The radiative sum is divided by the result; a zero denominator gives an undefined point.

The source's loops are methods: `Files.Gather` (the `glob` loop),
`Collisions.ReadRowCount` (the preamble loop), `Collisions.ReadCollisions` (the
file loop), `Lines.LineFrame.CleanTextColumns` (the loop over text columns) and
`CriticalDensity.MergedTable.WeightColumns` (the weighting loop). The tables
updated in place, `LineFrame` and `MergedTable`, are classes. `ReadLines`,
`ReadCollisions` and `ComputeCriticalDensity` drive those methods and are each
proved equal to a specification function of their inputs. The properties below
are proved about those functions.

Shared pieces:

- `Common` holds `Option`, `Result` and the error values that stand for Python's exceptions.
- `Text` models Python's `str.split`, `re.split(r'\s+')`, `int()` and `float()` on text.
- `Sums` holds a generic finite sum with its permutation, regrouping and exchange lemmas.
- `Files` models the `glob` loop shared by both readers. The file system is a parameter: `glob` maps a pattern to its sorted matches, and `read` maps a path to the file's content.

## Model

| member | source | states |
|---|---|---|
| Files.Gather | utils/utils.py:30-32 | The file list is the matches of each species' pattern in request order. A path is listed iff some requested species' pattern matches it. |
| Files.GatheredEmpty | utils/utils.py:34-35 | The list is empty iff no requested species' pattern matches anything. |
| Lines.RowCountOfPrinted | utils/utils.py:46-48 | A first line whose text after the first `#` is a printed integer declares exactly that row count. |
| Lines.InferColumn | utils/utils.py:50-52 | A column is int iff every token parses as an integer. Otherwise it is float iff every token parses as a float. Otherwise it is text holding the tokens. The cells hold the parsed values. |
| Lines.CleanColumn | utils/utils.py:55-62 | Non-text columns are untouched. A text column loses every `;` and becomes int iff every stripped cell parses as an integer, with those values. Otherwise it stays text, each cell being its original with every `;` removed. It never becomes float. The height is kept. |
| Lines.SetColumn | utils/utils.py:65 | Assigning `file` replaces every column with that label, or else appends one. Every other column is kept. |
| Lines.RowCount | utils/utils.py:47-48 | A first line without `#` has no row count. Otherwise the count is the integer written, spaces removed, between the first `#` and the next `#` or the end of the line. |
| Lines.Kept | utils/utils.py:50-52 | `nrows` keeps the first `n` data rows, or all of them when there are fewer. |
| Lines.IndexWidth | utils/utils.py:50-52 | The row index takes as many leading cells as the first data line has beyond the header's labels, and none when it has no more. |
| Lines.Fields | utils/utils.py:50-52 | Each row loses exactly its first `e` cells, the index, and nothing else. |
| Lines.Assemble | utils/utils.py:50-65 | The table has one column per header label plus `file`, each with one cell per row. The labels are the header without its first label, then `unit`. Each non-`file` column is the cleaned typed column of its cells. The `file` column holds the path on every row. |
| Lines.TableOf | utils/utils.py:46-65 | A bad row count gives BadRowCount and a negative one gives NegativeRowCount. Success holds iff the count is valid, the header is non-empty and every kept row has the header's width plus the index width of the first data line. The table is then the assembled one: the first `nrows` rows without their index cells, labels shifted with `unit`, text columns cleaned. It always has a `file` column, holding the path on every kept row. |
| Lines.IndexDropped | utils/utils.py:50-53 | When every row has one cell more than the header has labels, column `k` of the table holds the `k + 1`-th token of each row: the first token is the index and the labels go with the tokens after it. |
| Lines.ReadLineFile | utils/utils.py:46-67 | Reading one file by relabelling, cleaning and tagging the frame in place gives exactly the specified table. |
| Lines.ReadLinesSpec | utils/utils.py:10-71 | A success comes from exactly one matching file, and its table has a `file` column. |
| Lines.LineFrame.ShiftLabels | utils/utils.py:53 | The labels become the old labels without the first, plus `unit`. The columns are unchanged. |
| Lines.LineFrame.CleanTextColumns | utils/utils.py:56-62 | Every column becomes its cleaned version and the labels are unchanged. |
| Lines.LineFrame.TagFile | utils/utils.py:65 | The frame becomes the old frame with its `file` column set to the path on every row. |
| Lines.ReadLines | utils/utils.py:10-71 | The in-place reader returns exactly the result of the reading specification. |
| Lines.ReadLinesFileCount | utils/utils.py:34-71 | The result is NoLineFile iff no pattern matches and SeveralLineFiles iff more than one file matches. When exactly one file matches, the result is that file's own reading, its error included. A success comes from the one file found. |
| Einstein.EinsteinColumn | utils/utils.py:94 | Finds the first label of the form `A<lowercase letters>(s-1)`. None iff no label has that form. |
| Einstein.AtLevel | utils/utils.py:97-98 | Keeps exactly the transitions whose upper level equals `nu`. |
| Einstein.SumEinsteinCoefs | utils/utils.py:74-103 | No Einstein column gives NoEinsteinColumn. A missing `nu` column gives MissingColumn. A level without transitions gives UnknownLevel. Otherwise the result is the sum of the coefficients of the transitions leaving `nu`. |
| Einstein.AtLevelCount | utils/utils.py:97-98 | Each transition is selected as often as it occurs if it leaves `nu`, else never. |
| Einstein.LevelSumOrderIndependent | utils/utils.py:97-102 | Reordering the transitions changes neither whether the level exists nor the sum. |
| Einstein.LevelSumMasked | utils/utils.py:98-99 | The level's sum equals the sum over all transitions, each counted only if it leaves `nu`. |
| Collisions.ReadRowCount | utils/utils.py:120-127 | The preamble loop yields the integer on the fourth line, or fails where `int()` fails. |
| Collisions.ParseAll | utils/utils.py:129-131 | Header parsing succeeds iff every token is a float. The result then holds those floats in order. |
| Collisions.WholeTemperatures | utils/utils.py:129-131 | A header of printed whole numbers reads back as exactly those temperatures. |
| Collisions.ColliderOf | utils/utils.py:146 | A collider exists iff the path contains a `_`. It is then the text after the first `_`, up to the next `_` or the end of the path. |
| Collisions.Padded | utils/utils.py:136-140 | A row shorter than the first data row keeps its own cells and gets NaN in every column it does not reach. |
| Collisions.Aligned | utils/utils.py:141-142 | Rows one cell wider than the header lose their first cell. Other rows are untouched. |
| Collisions.Cells | utils/utils.py:136-142 | Each kept row is padded to the first row's width, then loses the stray first cell when there is one. |
| Collisions.RowOf | utils/utils.py:144-147 | The first two cells become `nu` and `nl`, the rest become the rates (NaN where padded), and the row is tagged with the collider. |
| Collisions.RowsOf | utils/utils.py:136-147 | Each kept row keeps its collider and gets one rate per temperature. Its levels are the two cells after any stray cell. Each rate is the row's own cell at that column, or NaN where the row ends before it. |
| Collisions.FileTableWith | utils/utils.py:129-149 | A successful file has a non-negative row count and a header of floats. Its row count is the smaller of that count and the data size. Every row carries the path's collider and one rate per header temperature. A row as wide as the first data row has every rate defined. |
| Collisions.FileTableWithOutcome | utils/utils.py:129-149 | The checks run in the source's order. A header token that is not a float gives BadTemperature. A negative row count gives NegativeRowCount, and no data rows give EmptyTable. A kept row wider than the first data row gives MalformedRow; a narrower one is padded. A first-row width that is neither the header's nor one more gives HeaderMismatch. A path without `_` gives NoCollider. A kept row too short to hold its two level cells gives MissingLevels. A file reads iff none of these applies. |
| Collisions.FileTableOf | utils/utils.py:119-149 | A fourth line that is not an integer gives BadRowCount. Otherwise the file reads with that row count. |
| Collisions.ColumnsLineUp | utils/utils.py:141-144 | When the data is exactly as wide as the header, cells and labels line up one to one. Each row's levels are its first two cells and its rates are the cells from the third on, NaN past the end of a short row. |
| Collisions.StrayColumnDropped | utils/utils.py:141-144 | When the data is one column wider than the header, each row's levels come from the second and third cells and its rates from the fourth cell on, NaN past the end of a short row. |
| Collisions.ShortRowPadded | utils/utils.py:136-147 | A file with a stray first column and a second row one cell short reads, with NaN as that row's rate at the second temperature. |
| Collisions.Grid | utils/utils.py:151-152 | The column grid is strictly ascending. It holds exactly the temperatures of some file. |
| Collisions.Realign | utils/utils.py:151-152 | On the grid, a row has its own rate at each of its file's temperatures and NaN at every other temperature. |
| Collisions.FirstRepeating | utils/utils.py:152 | Finds the first file whose header repeats a temperature: that file repeats one and every earlier file does not. None iff every header is duplicate-free. |
| Collisions.Stacked | utils/utils.py:151 | The stack has one row per file row, each on the grid, and every file's realigned rows appear in it. |
| Collisions.Concat | utils/utils.py:151-152 | No files gives NoCollisionFiles. Success holds iff there are files and no header repeats a temperature. The result is rectangular and its temperatures ascend. |
| Collisions.ConcatContents | utils/utils.py:151-152 | The concatenated table has exactly the files' temperatures and as many rows as all files together. |
| Collisions.ConcatRowAt | utils/utils.py:151-152 | Row `i` of file `k`, realigned on the grid, sits at position `i` after all rows of the files before `k`. With the row count, every file row appears exactly once, in file order. |
| Collisions.ParseEachOk | utils/utils.py:118-149 | Reading all files succeeds iff each file reads. Each result then sits at its file's position. |
| Collisions.ParseEachFirstError | utils/utils.py:118-149 | A failed read reports the error of the first file that cannot be read. |
| Collisions.ParseFiles | utils/utils.py:118-149 | A success has one table per file, in order, each the file's own table, with one rate per header temperature in every row. |
| Collisions.ReadCollisionsSpec | utils/utils.py:107-153 | No matching file gives NoCollisionFiles. A success means every matching file read, and the table is rectangular with ascending temperatures. |
| Collisions.ReadCollisionFile | utils/utils.py:119-149 | Reading one file by its preamble loop gives the file's table as specified. |
| Collisions.ReadCollisions | utils/utils.py:107-153 | The file loop with early exit on error returns exactly the reading specification's result. |
| Interpolation.PrevKnown | utils/utils.py:158-161 | Finds the nearest known rate left of a column, or proves there is none. |
| Interpolation.NextKnown | utils/utils.py:158-161 | Finds the nearest known rate at or right of a column, or proves there is none. |
| Interpolation.Lerp | utils/utils.py:161 | The value at position `j` lies on the straight line through `(p, a)` and `(q, b)`, so positions count as equally spaced. It lies between `a` and `b`. |
| Interpolation.FillAt | utils/utils.py:158-161 | A known rate stays. A gap with no known rate on one side of it stays NaN. |
| Interpolation.FillRow | utils/utils.py:161 | A filled row keeps its length and every known rate. |
| Interpolation.FillRowCells | utils/utils.py:158-161 | Known rates are kept. A cell is defined after filling iff it was known, or there are known rates on both sides of it. A filled gap takes the value on the straight line through the nearest known rates on either side (`Lerp` at those positions), which lies between them. |
| Interpolation.EdgeGapsStay | utils/utils.py:158-160 | A gap with no known rate on one side stays NaN. |
| Interpolation.FillTable | utils/utils.py:161 | Filling keeps the temperatures and the row keys, and fills every row. |
| Interpolation.CompleteColumns | utils/utils.py:162 | Lists, in ascending order, exactly the columns with no NaN. |
| Interpolation.DropIncomplete | utils/utils.py:162 | `dropna` keeps the rows and their keys, leaves every remaining cell defined, keeps every complete column and introduces no temperature. |
| Interpolation.ColumnSurvivesAt | utils/utils.py:162 | With ascending temperatures, a column survives `dropna` iff it is complete. |
| Interpolation.ProcessCollisions | utils/utils.py:156-164 | The result has the same rows, one defined rate per remaining temperature, and only temperatures of the input. |
| Interpolation.ProcessedDefined | utils/utils.py:156-164 | The processed table is rectangular and has the same rows and keys. Every remaining rate is defined. |
| Interpolation.ColumnSurvives | utils/utils.py:158-162 | The temperatures stay ascending. A temperature survives iff every row is defined there after filling. |
| Interpolation.SurvivingCells | utils/utils.py:161-162 | Every surviving column is an original column with its filled values. |
| Interpolation.EdgeGapDropsColumn | utils/utils.py:159-160 | A column where some row has no known rate on one side is dropped. |
| Interpolation.NoGapsUnchanged | utils/utils.py:161-162 | A table without NaN is unchanged. |
| Interpolation.Idempotent | utils/utils.py:156-164 | Processing a processed table changes nothing. |
| Interpolation.MidpointExample | utils/utils.py:158-161 | A gap midway between 10 and 30 is filled with 20. |
| CriticalDensity.Selected | utils/utils.py:171 | Keeps exactly the rows with upper level `nu`. |
| CriticalDensity.SelectedPermutation | utils/utils.py:171 | Reordering the table's rows only reorders the selection. |
| CriticalDensity.Colliders | utils/utils.py:172 | The group keys are duplicate-free. They are exactly the colliders of the selected rows. |
| CriticalDensity.GroupsOf | utils/utils.py:172 | One group per collider. Each temperature cell holds the sum of that collider's rates, with NaN counted as zero. |
| CriticalDensity.GroupedByCollider | utils/utils.py:172 | `groupby(level=[1]).sum()` gives each collider one group at most, and each group's rate at a temperature is the sum of its collider's rates there. |
| CriticalDensity.GroupsHaveRows | utils/utils.py:172 | Every group belongs to the collider of some selected row. |
| CriticalDensity.RowsHaveGroups | utils/utils.py:172 | Every selected row's collider has a group. |
| CriticalDensity.MatchesFrom | utils/utils.py:175-179 | Every abundance a collider is joined with belongs to an index label equal to that collider. |
| CriticalDensity.MergeFrom | utils/utils.py:175-179 | Every joined row is a group's collider and rates paired with the abundance of an index label naming that collider. |
| CriticalDensity.MergeCovers | utils/utils.py:175-179 | Every group whose collider is an index label of the abundance table appears in the join. |
| CriticalDensity.MatchesAbsent | utils/utils.py:175-179 | A collider finds no join partner iff it is not an index label of the abundance table. |
| CriticalDensity.MergeGroup | utils/utils.py:175-179 | A group joins once per matching index label, carrying that label's abundance. |
| CriticalDensity.Weighted | utils/utils.py:182-184 | Weighting multiplies every temperature column of every row by the row's abundance. |
| CriticalDensity.MergedTable.WeightColumns | utils/utils.py:182-184 | Multiplying the columns in place, one at a time, leaves the table equal to its fully weighted form. |
| CriticalDensity.MergedTable.ColumnTotals | utils/utils.py:186-187 | Returns the per-temperature column sums of the table. |
| CriticalDensity.Totals | utils/utils.py:186-187 | One total per temperature: the sum of that column over the merged rows. |
| CriticalDensity.Quotient | utils/utils.py:190-191 | Undefined iff the denominator is zero, where Python produces inf or NaN and then NaN. Otherwise the quotient times the denominator is the numerator. |
| CriticalDensity.Curve | utils/utils.py:190-191 | One point per temperature, each the quotient at that temperature. |
| CriticalDensity.ComputeCriticalDensity | utils/utils.py:168-197 | The computation with the in-place weighting loop returns exactly the specification's result. |
| CriticalDensity.AbundanceListed | utils/utils.py:175-184 | With duplicate-free index labels, a listed collider is weighted by its own abundance. |
| CriticalDensity.AbundanceUnlisted | utils/utils.py:175-179 | A collider absent from the abundance table contributes nothing. |
| CriticalDensity.AnyColliderOrder | utils/utils.py:172 | Summing per collider in any duplicate-free order that covers the colliders equals summing abundance-weighted rates row by row. So the groupby order is irrelevant. |
| CriticalDensity.TotalIsDenominator | utils/utils.py:171-187 | The total after grouping, joining, weighting and summing equals the sum over the level's rows of rate times collider abundance. |
| CriticalDensity.CriticalDensityMeaning | utils/utils.py:168-197 | A missing level gives UnknownLevel and a missing kind gives UnknownKind. Success holds iff both exist. The curve then has one point per temperature: the radiative sum over the weighted collisional sum, undefined where that is zero. |
| CriticalDensity.RowOrderIndependent | utils/utils.py:171-172 | Reordering the collision table's rows does not change the result. |
| CriticalDensity.SingleColliderExample | utils/utils.py:168-197 | One H2 row with rates 1e-10 and 2e-10 at 50 K and 100 K, abundance 0.5 and radiative sum 1e-4 gives 1e-4/(0.5·1e-10) and 1e-4/(0.5·2e-10). |
| Text.SplitJoin | utils/utils.py:48 | Splitting on a character loses nothing: joining the pieces gives the text back. |
| Text.TokensKeepText | utils/utils.py:130-131 | Whitespace tokenising keeps every non-space character, in order, and nothing else. |
| Text.SplitSeveral | utils/utils.py:146 | `str.split` yields more than one piece iff the separator occurs in the text. |
| Text.SplitAtFirst | utils/utils.py:146 | The first piece is the text before the first separator. The remaining pieces are those of the text after it. |
| Text.ParseShowInt | utils/utils.py:48 | `int()` reads back a printed integer as itself. |
| Text.ParseRealShowInt | utils/utils.py:131 | `float()` reads a printed integer as that number. |

## Left out

- The file system, `open` and `glob.glob` are parameters. `read_csv`'s own tokenising (the `sep`, `comment` and `skiprows` handling) is taken as done. A line file is given as its first line, header tokens and data-row tokens. A collision file is given as its text lines and its numeric data rows.
- Python's `int()`/`float()` are modelled for plain decimal literals with sign, fraction and exponent. Underscores, `inf` and `nan` are not modelled.
- Whitespace is the ASCII whitespace Python recognises: tab through carriage return, U+001C to U+001F, and space. Python's non-ASCII whitespace (U+0085, U+00A0, U+2000 to U+200A and others) is not modelled.
- Floating point is modelled as exact reals. Rounding, overflow and NaN payloads are not modelled, and NaN is `None`.
- Lines.TableOf: like `read_csv`, it takes the cells the first data line has beyond the header's labels as the row index. A kept row of any other width is reported as `MalformedRow`, where `read_csv` would pad a short row with NaN and reject a long one. The index itself is not kept as a column. `read_csv`'s reading of a first data line as a row of index names (when the second is exactly as wide as both together) is not modelled.
- Duplicate column labels in a line file are not modelled, beyond `file` replacing every column so labelled.
- Lines.ReadLines: the final `pd.concat` over a one-element list is taken as the identity. Only one file can reach it.
- Lines.ReadLines: a `str` argument for `species` is not modelled. The wrapping into a one-element list leaves that as the one case.
- Einstein.SumEinsteinCoefs: a text Einstein column makes pandas concatenate strings. The model returns `NonNumericColumn` instead.
- Einstein.EinsteinColumn: the regular expression searches the concatenated labels. A label that only contains the pattern inside a longer text, or a match spanning two labels, makes Python fail on the lookup. The model skips such labels.
- `drop([0], 1)` and `drop(kind, 1)` are read with the positional-axis meaning of pandas before 2.0.
- Collisions.Concat: pandas' reindexing fails on duplicate column labels, and the model reports this as `DuplicateTemperature`. Rows of different files keep pandas' stacking order.
- Collisions.FileTableWith: a file without data rows is reported as `EmptyTable`.
- Collisions.FileTableWith: a kept row too short to reach its two level cells is reported as `MissingLevels`. `read_csv` would pad it and give that row NaN levels in the index. Shorter rows that still hold their levels are padded as in `read_csv`.
- Interpolation.FillRowCells: it fills only between two known values. The source's comment states this rule. The library's default `limit_direction='forward'` would also carry the last known value into a trailing gap, and the model does not do that.
- Interpolation.Lerp: it interpolates by column position (pandas `method='linear'`), not by temperature.
- CriticalDensity.Colliders: the groups are listed in first-appearance order rather than pandas' sorted order. AnyColliderOrder and RowOrderIndependent prove that the order does not change the result.
- CriticalDensity.CriticalDensitySpec: NaN abundances are not modelled. The abundance table is given as index labels and one column per kind.
- `plot_critical_density`, the widgets and `main.py` are presentation only and are not part of this model.

=== FILE: collisions.dfy ===
/** `read_collisions`: reading the collision files of a species into one
    table of rate coefficients keyed by (upper level, lower level, collider),
    with one column per temperature.

    A collision file is given as its text lines (the reader looks at lines 4
    and 8) together with the numeric rows `read_csv` finds after the first
    nine lines. */
module Collisions {
  import opened Common
  import opened Text
  import opened Sums
  import Files

  datatype CollisionFile = CollisionFile(lines: seq<string>, data: seq<seq<real>>)

  /** One row of the table: its index `(nu, nl, collider)` and one rate per
      temperature column, `None` where the rate is undefined (NaN). */
  datatype CollisionRow = CollisionRow(nu: real, nl: real, collider: string, rates: seq<Option<real>>)

  datatype CollisionTable = CollisionTable(temperatures: seq<real>, rows: seq<CollisionRow>)

  /** Every row has one rate per temperature column. */
  predicate WellFormed(t: CollisionTable)
  {
    forall i :: 0 <= i < |t.rows| ==> |t.rows[i].rates| == |t.temperatures|
  }

  predicate Ascending(s: seq<real>)
  {
    forall i, j :: 0 <= i < j < |s| ==> s[i] < s[j]
  }

  /** The table of one file before concatenation. */
  datatype FileTable = FileTable(path: string, temperatures: seq<real>, rows: seq<CollisionRow>)

  // ---------------------------------------------------------------------
  // One file
  // ---------------------------------------------------------------------

  /** What the `i`-th call of `readline()` returns: line `i`, or `""` past the end. */
  function Line(lines: seq<string>, i: nat): string
  {
    if i < |lines| then lines[i] else ""
  }

  /** Number of lines read before the header line (`idx_header - 1`). */
  const PreambleLines := 7

  /** The preamble loop: seven lines are read and the fourth (`i == 3`) holds
      the row count; `None` where `int()` raises. */
  method ReadRowCount(lines: seq<string>) returns (nrows: Option<int>)
    ensures nrows == ParseInt(Line(lines, 3))
  {
    nrows := None;
    for i := 0 to PreambleLines
      invariant i > 3 ==> nrows == ParseInt(Line(lines, 3))
    {
      var val := Line(lines, i);
      if i == 3 {
        nrows := ParseInt(val);
        if nrows.None? {
          return;
        }
      }
    }
  }

  /** The temperatures of the header line: `[float(col) for col in re.split(r'\s+', header) if len(col) > 0]`. */
  function HeaderTemperatures(line: string, path: string): Result<seq<real>>
  {
    ParseAll(Tokens(line), path)
  }

  /** `[float(col) for col in header]`: every token parsed, the first
      failure reported. */
  function ParseAll(tokens: seq<string>, path: string): (r: Result<seq<real>>)
    ensures r.Ok? <==> forall k :: 0 <= k < |tokens| ==> ParseReal(tokens[k]).Some?
    ensures r.Ok? ==> (|r.value| == |tokens| &&
      forall k :: 0 <= k < |r.value| ==> ParseReal(tokens[k]) == Some(r.value[k]))
  {
    ParseAllWith(tokens, path, ParseReal)
  }

  /** The list comprehension over the tokens with `parse` for `float()`. */
  function ParseAllWith(tokens: seq<string>, path: string, parse: string -> Option<real>): (r: Result<seq<real>>)
    ensures r.Ok? <==> forall k :: 0 <= k < |tokens| ==> parse(tokens[k]).Some?
    ensures r.Ok? ==> (|r.value| == |tokens| &&
      forall k :: 0 <= k < |r.value| ==> parse(tokens[k]) == Some(r.value[k]))
  {
    if tokens == [] then Ok([])
    else match parse(tokens[0])
      case None => Err(BadTemperature(path, tokens[0]))
      case Some(x) =>
        assert forall k :: 1 <= k < |tokens| ==> tokens[k] == tokens[1..][k - 1];
        match ParseAllWith(tokens[1..], path, parse)
        case Err(e) => Err(e)
        case Ok(xs) => Ok([x] + xs)
  }

  /** Header tokens that are printed whole numbers read back as those numbers. */
  lemma WholeTemperatures(ns: seq<int>, path: string)
    ensures ParseAll(seq(|ns|, k requires 0 <= k < |ns| => ShowInt(ns[k])), path) ==
      Ok(seq(|ns|, k requires 0 <= k < |ns| => ns[k] as real))
  {
    var tokens := seq(|ns|, k requires 0 <= k < |ns| => ShowInt(ns[k]));
    forall k | 0 <= k < |ns| ensures ParseReal(tokens[k]) == Some(ns[k] as real) {
      ParseRealShowInt(ns[k]);
    }
    var r := ParseAll(tokens, path);
    assert r.Ok?;
    var temps := seq(|ns|, k requires 0 <= k < |ns| => ns[k] as real);
    assert forall k :: 0 <= k < |ns| ==> r.value[k] == temps[k];
    assert r.value == temps;
  }

  /** `filename.split("_")[1]`: the text between the first `_` of the path
      and the next one (or the end); `None` where the path has no `_`. */
  function ColliderOf(path: string): (r: Option<string>)
    ensures r.Some? <==> '_' in path
    ensures r.Some? ==>
      var k := FindFirst(path, {'_'});
      var after := path[k + 1..];
      k < |path| && r.value == after[..FindFirst(after, {'_'})]
  {
    var parts := Split(path, '_');
    SplitSeveral(path, '_');
    if |parts| < 2 then None
    else
      var k := FindFirst(path, {'_'});
      SplitAtFirst(path, '_');
      SplitAtFirst(path[k + 1..], '_');
      assert parts[1] == parts[1..][0];
      Some(parts[1])
  }

  /** A data row as `read_csv` stores it in a table `width` columns wide
      (the width of the first data row): its own cells, then NaN in every
      column it does not reach. */
  function Padded(row: seq<real>, width: nat): (r: seq<Option<real>>)
    requires |row| <= width
    ensures |r| == width
    ensures forall k :: 0 <= k < width ==> (r[k].Some? <==> k < |row|)
    ensures forall k :: 0 <= k < |row| ==> r[k] == Some(row[k])
  {
    seq(width, k requires 0 <= k < width => if k < |row| then Some(row[k]) else None)
  }

  /** The data columns once the header is applied: a row one cell wider than
      the header loses its first cell. */
  function Aligned<T>(rows: seq<seq<T>>, width: nat, headerLength: nat): (r: seq<seq<T>>)
    requires forall i :: 0 <= i < |rows| ==> |rows[i]| == width
    ensures |r| == |rows|
    ensures width == headerLength + 1 ==> forall i :: 0 <= i < |rows| ==> r[i] == rows[i][1..]
    ensures width != headerLength + 1 ==> r == rows
  {
    if width == headerLength + 1 then seq(|rows|, i requires 0 <= i < |rows| => rows[i][1..]) else rows
  }

  /** A data row labelled `nu, nl, T1, T2, ...` and tagged with its collider. */
  function RowOf(cells: seq<Option<real>>, collider: string): (r: CollisionRow)
    requires |cells| >= 2 && cells[0].Some? && cells[1].Some?
    ensures |r.rates| == |cells| - 2
    ensures r.nu == cells[0].value && r.nl == cells[1].value && r.collider == collider
    ensures forall k :: 0 <= k < |r.rates| ==> r.rates[k] == cells[k + 2]
  {
    CollisionRow(cells[0].value, cells[1].value, collider, cells[2..])
  }

  /** Everything after the row count: header, data, labelling, collider tag. */
  function FileTableWith(path: string, f: CollisionFile, n: int): (r: Result<FileTable>)
    ensures r.Ok? ==> n >= 0 && f.data != [] && r.value.path == path
    ensures r.Ok? ==> HeaderTemperatures(Line(f.lines, 7), path) == Ok(r.value.temperatures)
    ensures r.Ok? ==> |r.value.rows| == Min(n, |f.data|)
    ensures r.Ok? ==> ColliderOf(path).Some?
    ensures r.Ok? ==> forall i :: 0 <= i < |r.value.rows| ==>
      var row := r.value.rows[i];
      && row.collider == ColliderOf(path).value
      && |row.rates| == |r.value.temperatures|
      && (|f.data[i]| == |f.data[0]| ==> forall k :: 0 <= k < |row.rates| ==> row.rates[k].Some?)
  {
    match HeaderTemperatures(Line(f.lines, 7), path)
    case Err(e) => Err(e)
    case Ok(temps) =>
      var headerLength := |temps| + 2;
      if n < 0 then Err(NegativeRowCount(path))
      else if f.data == [] then Err(EmptyTable(path))
      else
        var width := |f.data[0]|;
        var kept := f.data[..Min(n, |f.data|)];
        if exists i :: 0 <= i < |kept| && |kept[i]| > width then Err(MalformedRow(path))
        else
          var lead := if width == headerLength + 1 then 1 else 0;
          if width - lead != headerLength then Err(HeaderMismatch(path))
          else match ColliderOf(path)
            case None => Err(NoCollider(path))
            case Some(c) =>
              if exists i :: 0 <= i < |kept| && |kept[i]| < lead + 2 then Err(MissingLevels(path))
              else Ok(FileTable(path, temps, RowsOf(kept, width, |temps|, c)))
  }

  /** The data cells of the kept rows once the header is applied: each row
      padded with NaN to the width of the first data row, then stripped of
      a stray first cell. */
  function Cells(kept: seq<seq<real>>, width: nat, count: nat): (r: seq<seq<Option<real>>>)
    requires Fits(width, count)
    requires forall i :: 0 <= i < |kept| ==> |kept[i]| <= width
    ensures |r| == |kept|
    ensures forall i :: 0 <= i < |kept| ==> r[i] == Padded(kept[i], width)[width - count - 2..]
  {
    var padded := seq(|kept|, i requires 0 <= i < |kept| => Padded(kept[i], width));
    Aligned(padded, width, count + 2)
  }

  /** The labelled rows of a file whose first data row is `width` cells wide
      and whose header has `count` temperatures. */
  function RowsOf(kept: seq<seq<real>>, width: nat, count: nat, c: string): (r: seq<CollisionRow>)
    requires Fits(width, count)
    requires forall i :: 0 <= i < |kept| ==> |kept[i]| <= width && |kept[i]| + count >= width
    ensures |r| == |kept|
    ensures forall i :: 0 <= i < |r| ==> r[i].collider == c && |r[i].rates| == count
    ensures forall i :: 0 <= i < |r| ==>
      r[i].nu == kept[i][width - count - 2] && r[i].nl == kept[i][width - count - 1]
    ensures forall i, k :: 0 <= i < |r| && 0 <= k < count ==>
      r[i].rates[k] == if width - count + k < |kept[i]| then Some(kept[i][width - count + k]) else None
  {
    var cells := Cells(kept, width, count);
    seq(|kept|, i requires 0 <= i < |kept| => RowOf(cells[i], c))
  }

  /** No data row `read_csv` keeps is wider than the first data row (a wider
      one makes the parser fail; a narrower one is padded). */
  predicate NoLongRows(f: CollisionFile, n: int)
  {
    f.data != [] && forall i :: 0 <= i < Min(n, |f.data|) ==> |f.data[i]| <= |f.data[0]|
  }

  /** A data row of `width` cells fits a header of `count` temperatures:
      level indices and rates, possibly after one stray leading cell. */
  predicate Fits(width: nat, count: nat)
  {
    width == count + 2 || width == count + 3
  }

  /** Every kept row reaches past its level cells, which end `count`
      cells before the width of the first data row. */
  predicate HasLevels(f: CollisionFile, n: int, count: nat)
    requires f.data != []
  {
    forall i :: 0 <= i < Min(n, |f.data|) ==> |f.data[i]| + count >= |f.data[0]|
  }

  /** When a file reads, and which error it reports otherwise, in the order
      the reading checks them. */
  lemma FileTableWithOutcome(path: string, f: CollisionFile, n: int)
    ensures var h := HeaderTemperatures(Line(f.lines, 7), path);
      h.Err? ==> FileTableWith(path, f, n) == Err(h.error)
    ensures var h := HeaderTemperatures(Line(f.lines, 7), path);
      h.Ok? && n < 0 ==> FileTableWith(path, f, n) == Err(NegativeRowCount(path))
    ensures var h := HeaderTemperatures(Line(f.lines, 7), path);
      h.Ok? && n >= 0 && f.data == [] ==> FileTableWith(path, f, n) == Err(EmptyTable(path))
    ensures var h := HeaderTemperatures(Line(f.lines, 7), path);
      h.Ok? && n >= 0 && f.data != [] && !NoLongRows(f, n) ==> FileTableWith(path, f, n) == Err(MalformedRow(path))
    ensures var h := HeaderTemperatures(Line(f.lines, 7), path);
      h.Ok? && n >= 0 && NoLongRows(f, n) && !Fits(|f.data[0]|, |h.value|) ==>
      FileTableWith(path, f, n) == Err(HeaderMismatch(path))
    ensures var h := HeaderTemperatures(Line(f.lines, 7), path);
      h.Ok? && n >= 0 && NoLongRows(f, n) && Fits(|f.data[0]|, |h.value|) && '_' !in path ==>
      FileTableWith(path, f, n) == Err(NoCollider(path))
    ensures var h := HeaderTemperatures(Line(f.lines, 7), path);
      h.Ok? && n >= 0 && NoLongRows(f, n) && Fits(|f.data[0]|, |h.value|) && '_' in path &&
      !HasLevels(f, n, |h.value|) ==>
      FileTableWith(path, f, n) == Err(MissingLevels(path))
    ensures var h := HeaderTemperatures(Line(f.lines, 7), path);
      FileTableWith(path, f, n).Ok? <==>
      h.Ok? && n >= 0 && NoLongRows(f, n) && Fits(|f.data[0]|, |h.value|) && '_' in path &&
      HasLevels(f, n, |h.value|)
  {
    var h := HeaderTemperatures(Line(f.lines, 7), path);
    SplitSeveral(path, '_');
    if h.Ok? && n >= 0 && f.data != [] {
      var kept := f.data[..Min(n, |f.data|)];
      assert forall i :: 0 <= i < |kept| ==> kept[i] == f.data[i];
      assert NoLongRows(f, n) <==> !exists i :: 0 <= i < |kept| && |kept[i]| > |f.data[0]|;
      if NoLongRows(f, n) && Fits(|f.data[0]|, |h.value|) && '_' in path {
        var lead := if |f.data[0]| == |h.value| + 3 then 1 else 0;
        assert HasLevels(f, n, |h.value|) <==> !exists i :: 0 <= i < |kept| && |kept[i]| < lead + 2;
      }
    }
  }

  /** Reading one collision file found at `path`. */
  function FileTableOf(path: string, f: CollisionFile): (r: Result<FileTable>)
    ensures ParseInt(Line(f.lines, 3)).None? ==> r == Err(BadRowCount(path))
    ensures ParseInt(Line(f.lines, 3)).Some? ==> r == FileTableWith(path, f, ParseInt(Line(f.lines, 3)).value)
  {
    match ParseInt(Line(f.lines, 3))
    case None => Err(BadRowCount(path))
    case Some(n) => FileTableWith(path, f, n)
  }

  /** When the data is as wide as the header, cells and labels line up one
      to one: the level indices are the first two cells and the rates the
      cells from the third on, NaN where a short row ends. */
  lemma ColumnsLineUp(path: string, f: CollisionFile, n: int, i: nat)
    requires FileTableWith(path, f, n).Ok?
    requires i < |FileTableWith(path, f, n).value.rows|
    requires |f.data[0]| == |FileTableWith(path, f, n).value.temperatures| + 2
    ensures var row := FileTableWith(path, f, n).value.rows[i];
      && 2 <= |f.data[i]| && row.nu == f.data[i][0] && row.nl == f.data[i][1]
      && forall k :: 0 <= k < |row.rates| ==>
           row.rates[k] == if k + 2 < |f.data[i]| then Some(f.data[i][k + 2]) else None
  {
    var temps := HeaderTemperatures(Line(f.lines, 7), path).value;
    var kept := f.data[..Min(n, |f.data|)];
    var width := |f.data[0]|;
    var c := ColliderOf(path).value;
    assert FileTableWith(path, f, n) == Ok(FileTable(path, temps, RowsOf(kept, width, |temps|, c)));
    assert kept[i] == f.data[i];
  }

  /** When the data is one column wider than the header, the stray first
      column is dropped: the level indices come from the second and third
      cells and the rates from the fourth on, NaN where a short row ends. */
  lemma StrayColumnDropped(path: string, f: CollisionFile, n: int, i: nat)
    requires FileTableWith(path, f, n).Ok?
    requires i < |FileTableWith(path, f, n).value.rows|
    requires |f.data[0]| == |FileTableWith(path, f, n).value.temperatures| + 3
    ensures var row := FileTableWith(path, f, n).value.rows[i];
      && 3 <= |f.data[i]| && row.nu == f.data[i][1] && row.nl == f.data[i][2]
      && forall k :: 0 <= k < |row.rates| ==>
           row.rates[k] == if k + 3 < |f.data[i]| then Some(f.data[i][k + 3]) else None
  {
    var temps := HeaderTemperatures(Line(f.lines, 7), path).value;
    var kept := f.data[..Min(n, |f.data|)];
    var width := |f.data[0]|;
    var c := ColliderOf(path).value;
    assert FileTableWith(path, f, n) == Ok(FileTable(path, temps, RowsOf(kept, width, |temps|, c)));
    assert kept[i] == f.data[i];
  }

  /** A kept row shorter than the first data row is padded, not rejected:
      here the second row of a file with a stray first column lacks its
      rate at the second temperature, which becomes NaN. */
  lemma ShortRowPadded(path: string, lines: seq<string>, c: string)
    requires HeaderTemperatures(Line(lines, 7), path) == Ok([10.0, 20.0])
    requires ColliderOf(path) == Some(c)
    ensures FileTableWith(path, CollisionFile(lines, [[1.0, 2.0, 1.0, 0.1, 0.2], [2.0, 3.0, 1.0, 0.3]]), 2) ==
      Ok(FileTable(path, [10.0, 20.0],
        [CollisionRow(2.0, 1.0, c, [Some(0.1), Some(0.2)]),
         CollisionRow(3.0, 1.0, c, [Some(0.3), None])]))
  {
    var data := [[1.0, 2.0, 1.0, 0.1, 0.2], [2.0, 3.0, 1.0, 0.3]];
    var f := CollisionFile(lines, data);
    assert f.data[..Min(2, |f.data|)] == data;
    assert !exists i :: 0 <= i < |data| && |data[i]| > 5;
    assert !exists i :: 0 <= i < |data| && |data[i]| < 3;
    ShortRowsPadded(c);
    var headerLength := 4;
    var width := |f.data[0]|;
    var kept := f.data[..Min(2, |f.data|)];
    assert width == 5 && kept == data;
    var lead := if width == headerLength + 1 then 1 else 0;
    assert lead == 1 && width - lead == headerLength;
    assert FileTableWith(path, f, 2) == Ok(FileTable(path, [10.0, 20.0], RowsOf(data, 5, 2, c)));
  }

  lemma ShortRowsPadded(c: string)
    ensures RowsOf([[1.0, 2.0, 1.0, 0.1, 0.2], [2.0, 3.0, 1.0, 0.3]], 5, 2, c) ==
      [CollisionRow(2.0, 1.0, c, [Some(0.1), Some(0.2)]), CollisionRow(3.0, 1.0, c, [Some(0.3), None])]
  {
    var rows := RowsOf([[1.0, 2.0, 1.0, 0.1, 0.2], [2.0, 3.0, 1.0, 0.3]], 5, 2, c);
    assert rows[0].rates == [Some(0.1), Some(0.2)] by {
      assert rows[0].rates[0] == Some(0.1) && rows[0].rates[1] == Some(0.2);
    }
    assert rows[1].rates == [Some(0.3), None] by {
      assert rows[1].rates[0] == Some(0.3) && rows[1].rates[1] == None;
    }
  }

  // ---------------------------------------------------------------------
  // The common temperature grid
  // ---------------------------------------------------------------------

  /** `x` put in its place in an ascending sequence, unless already there. */
  function Insert(s: seq<real>, x: real): (r: seq<real>)
    requires Ascending(s)
    ensures Ascending(r)
    ensures forall y :: y in r <==> y in s || y == x
  {
    if s == [] then [x]
    else if x < s[0] then
      AscendingCons(x, s);
      [x] + s
    else if x == s[0] then s
    else
      assert Ascending(s[1..]);
      var rest := Insert(s[1..], x);
      AscendingCons(s[0], rest);
      [s[0]] + rest
  }

  lemma AscendingCons(x: real, s: seq<real>)
    requires Ascending(s) && (s == [] || x < s[0])
    ensures Ascending([x] + s)
  {
  }

  function InsertAll(s: seq<real>, xs: seq<real>): (r: seq<real>)
    requires Ascending(s)
    ensures Ascending(r)
    ensures forall y :: y in r <==> y in s || y in xs
    decreases |xs|
  {
    if xs == [] then s else InsertAll(Insert(s, xs[0]), xs[1..])
  }

  /** The sorted union of the temperatures of all files: `sorted(df.columns)` after `pd.concat`. */
  function Grid(tables: seq<FileTable>): (r: seq<real>)
    ensures Ascending(r)
    ensures forall y :: y in r <==> exists k :: 0 <= k < |tables| && y in tables[k].temperatures
  {
    if tables == [] then []
    else
      var init := tables[..|tables| - 1];
      var r := InsertAll(Grid(init), tables[|tables| - 1].temperatures);
      assert forall k :: 0 <= k < |init| ==> init[k] == tables[k];
      r
  }

  /** A row's rates moved onto the grid: the rate of a temperature the file
      has, and `None` (NaN) for a temperature it lacks. */
  function Realign(rates: seq<Option<real>>, temps: seq<real>, grid: seq<real>): (r: seq<Option<real>>)
    requires |rates| == |temps| && Distinct(temps)
    ensures |r| == |grid|
    ensures forall j :: 0 <= j < |grid| && grid[j] !in temps ==> r[j] == None
    ensures forall j, k :: 0 <= j < |grid| && 0 <= k < |temps| && grid[j] == temps[k] ==> r[j] == rates[k]
  {
    seq(|grid|, j requires 0 <= j < |grid| =>
      if grid[j] in temps then rates[FindTemperature(temps, grid[j])] else None)
  }

  function FindTemperature(temps: seq<real>, x: real): (k: nat)
    requires x in temps
    ensures k < |temps| && temps[k] == x
  {
    if temps[0] == x then 0 else 1 + FindTemperature(temps[1..], x)
  }

  function RealignRow(row: CollisionRow, temps: seq<real>, grid: seq<real>): (r: CollisionRow)
    requires |row.rates| == |temps| && Distinct(temps)
    ensures r.nu == row.nu && r.nl == row.nl && r.collider == row.collider
    ensures r.rates == Realign(row.rates, temps, grid)
  {
    row.(rates := Realign(row.rates, temps, grid))
  }

  /** Each file's table carries one rate per header temperature, none repeated. */
  predicate Consistent(t: FileTable)
  {
    Distinct(t.temperatures) && forall i :: 0 <= i < |t.rows| ==> |t.rows[i].rates| == |t.temperatures|
  }

  function TotalRows(tables: seq<FileTable>): nat
  {
    if tables == [] then 0 else TotalRows(tables[..|tables| - 1]) + |tables[|tables| - 1].rows|
  }

  /** Where the rows of file `k` start in the stacked table: after all rows
      of the files before it. */
  function Offset(tables: seq<FileTable>, k: nat): nat
    requires k <= |tables|
  {
    TotalRows(tables[..k])
  }

  /** The rows of one file moved onto the grid, in order. */
  function RealignAll(t: FileTable, grid: seq<real>): (r: seq<CollisionRow>)
    requires Consistent(t)
    ensures |r| == |t.rows|
    ensures forall i :: 0 <= i < |r| ==> r[i] == RealignRow(t.rows[i], t.temperatures, grid)
  {
    seq(|t.rows|, i requires 0 <= i < |t.rows| => RealignRow(t.rows[i], t.temperatures, grid))
  }

  /** The rows of all files, one file after the other, moved onto the grid. */
  function Stacked(tables: seq<FileTable>, grid: seq<real>): (r: seq<CollisionRow>)
    requires forall k :: 0 <= k < |tables| ==> Distinct(tables[k].temperatures)
    requires forall k :: 0 <= k < |tables| ==> forall i :: 0 <= i < |tables[k].rows| ==>
      |tables[k].rows[i].rates| == |tables[k].temperatures|
    ensures |r| == TotalRows(tables)
    ensures forall i :: 0 <= i < |r| ==> |r[i].rates| == |grid|
    ensures forall k :: 0 <= k < |tables| ==> forall i :: 0 <= i < |tables[k].rows| ==>
      RealignRow(tables[k].rows[i], tables[k].temperatures, grid) in r
    decreases |tables|
  {
    if tables == [] then []
    else
      var init := tables[..|tables| - 1];
      var last := tables[|tables| - 1];
      assert forall k :: 0 <= k < |init| ==> init[k] == tables[k];
      var here := RealignAll(last, grid);
      var r := Stacked(init, grid) + here;
      assert forall k, i :: 0 <= k < |tables| && 0 <= i < |tables[k].rows| ==>
        RealignRow(tables[k].rows[i], tables[k].temperatures, grid) in r
      by {
        forall k, i | 0 <= k < |tables| && 0 <= i < |tables[k].rows|
          ensures RealignRow(tables[k].rows[i], tables[k].temperatures, grid) in r
        {
          if k < |init| {
            assert init[k] == tables[k];
          } else {
            assert here[i] in r;
          }
        }
      }
      r
  }

  /** Row `i` of file `k` sits right after the rows of the files before it. */
  lemma {:induction false} StackedAt(tables: seq<FileTable>, grid: seq<real>, k: nat, i: nat)
    requires forall k :: 0 <= k < |tables| ==> Distinct(tables[k].temperatures)
    requires forall k :: 0 <= k < |tables| ==> forall i :: 0 <= i < |tables[k].rows| ==>
      |tables[k].rows[i].rates| == |tables[k].temperatures|
    requires k < |tables| && i < |tables[k].rows|
    ensures Offset(tables, k) + i < |Stacked(tables, grid)|
    ensures Stacked(tables, grid)[Offset(tables, k) + i] ==
      RealignRow(tables[k].rows[i], tables[k].temperatures, grid)
    decreases |tables|
  {
    var init := tables[..|tables| - 1];
    assert forall k :: 0 <= k < |init| ==> init[k] == tables[k];
    assert Stacked(tables, grid) == Stacked(init, grid) + RealignAll(tables[|tables| - 1], grid);
    if k == |tables| - 1 {
      assert tables[..k] == init;
    } else {
      assert init[..k] == tables[..k];
      StackedAt(init, grid, k, i);
    }
  }

  /** The first file whose header repeats a temperature. */
  function FirstRepeating(tables: seq<FileTable>): (r: Option<nat>)
    ensures r.None? <==> forall k :: 0 <= k < |tables| ==> Distinct(tables[k].temperatures)
    ensures r.Some? ==> r.value < |tables| && !Distinct(tables[r.value].temperatures)
    ensures r.Some? ==> forall k :: 0 <= k < r.value ==> Distinct(tables[k].temperatures)
  {
    if tables == [] then None
    else if !Distinct(tables[0].temperatures) then Some(0)
    else match FirstRepeating(tables[1..])
      case None => None
      case Some(k) => Some(k + 1)
  }

  /** `pd.concat(list_collisions)` followed by `reindex(sorted(columns), axis=1)`. */
  function Concat(tables: seq<FileTable>): (r: Result<CollisionTable>)
    requires forall k :: 0 <= k < |tables| ==> forall i :: 0 <= i < |tables[k].rows| ==>
      |tables[k].rows[i].rates| == |tables[k].temperatures|
    ensures tables == [] ==> r == Err(NoCollisionFiles)
    ensures r.Ok? <==> tables != [] && forall k :: 0 <= k < |tables| ==> Distinct(tables[k].temperatures)
    ensures r.Ok? ==> WellFormed(r.value) && Ascending(r.value.temperatures)
  {
    if tables == [] then Err(NoCollisionFiles)
    else if FirstRepeating(tables).Some? then
      Err(DuplicateTemperature(tables[FirstRepeating(tables).value].path))
    else
      var grid := Grid(tables);
      Ok(CollisionTable(grid, Stacked(tables, grid)))
  }

  /** The concatenated table has exactly the temperatures of the files and
      one row per file row; `ConcatRowAt` says where each row goes. */
  lemma ConcatContents(tables: seq<FileTable>)
    requires forall k :: 0 <= k < |tables| ==> forall i :: 0 <= i < |tables[k].rows| ==>
      |tables[k].rows[i].rates| == |tables[k].temperatures|
    requires Concat(tables).Ok?
    ensures forall y :: y in Concat(tables).value.temperatures <==>
      exists k :: 0 <= k < |tables| && y in tables[k].temperatures
    ensures |Concat(tables).value.rows| == TotalRows(tables)
  {
  }

  /** The rows of the concatenated table are the files' rows one file after
      the other, in file order, each moved onto the grid: row `i` of file `k`
      sits right after the rows of the files before it. With the row count
      of `ConcatContents`, every file row appears exactly once. */
  lemma ConcatRowAt(tables: seq<FileTable>, k: nat, i: nat)
    requires forall k :: 0 <= k < |tables| ==> forall i :: 0 <= i < |tables[k].rows| ==>
      |tables[k].rows[i].rates| == |tables[k].temperatures|
    requires Concat(tables).Ok?
    requires k < |tables| && i < |tables[k].rows|
    ensures Offset(tables, k) + i < |Concat(tables).value.rows|
    ensures Concat(tables).value.rows[Offset(tables, k) + i] ==
      RealignRow(tables[k].rows[i], tables[k].temperatures, Concat(tables).value.temperatures)
  {
    var grid := Grid(tables);
    assert Concat(tables) == Ok(CollisionTable(grid, Stacked(tables, grid)));
    StackedAt(tables, grid, k, i);
  }

  // ---------------------------------------------------------------------
  // All files
  // ---------------------------------------------------------------------

  /** Reading a list of files one after the other: the results in order, or
      the error of the first file that fails (later files are not read). */
  function ParseEach<A>(names: seq<string>, parse: string -> Result<A>): (r: Result<seq<A>>)
    ensures r.Ok? ==> |r.value| == |names|
  {
    if names == [] then Ok([])
    else
      match ParseEach(names[..|names| - 1], parse)
      case Err(e) => Err(e)
      case Ok(ts) =>
        match parse(names[|names| - 1])
        case Err(e) => Err(e)
        case Ok(t) => Ok(ts + [t])
  }

  /** Reading succeeds exactly when every file can be read, and then yields
      each file's own result at its position. */
  lemma {:induction false} ParseEachOk<A>(names: seq<string>, parse: string -> Result<A>)
    ensures ParseEach(names, parse).Ok? <==> forall k :: 0 <= k < |names| ==> parse(names[k]).Ok?
    ensures ParseEach(names, parse).Ok? ==> forall k :: 0 <= k < |names| ==>
      parse(names[k]) == Ok(ParseEach(names, parse).value[k])
  {
    if names != [] {
      var init := names[..|names| - 1];
      ParseEachOk(init, parse);
      assert forall k :: 0 <= k < |init| ==> init[k] == names[k];
    }
  }

  /** When reading fails, the error is that of the first file that cannot be read. */
  lemma {:induction false} ParseEachFirstError<A>(names: seq<string>, parse: string -> Result<A>)
    ensures ParseEach(names, parse).Err? ==> exists j :: (0 <= j < |names| &&
      parse(names[j]) == Err(ParseEach(names, parse).error) &&
      forall k :: 0 <= k < j ==> parse(names[k]).Ok?)
  {
    if names != [] {
      var init := names[..|names| - 1];
      ParseEachFirstError(init, parse);
      ParseEachOk(init, parse);
      assert forall k :: 0 <= k < |init| ==> init[k] == names[k];
      if ParseEach(init, parse).Err? {
        var j :| 0 <= j < |init| && parse(init[j]) == Err(ParseEach(init, parse).error) &&
          forall k :: 0 <= k < j ==> parse(init[k]).Ok?;
        assert parse(names[j]) == Err(ParseEach(names, parse).error);
      } else if ParseEach(names, parse).Err? {
        assert parse(names[|names| - 1]) == Err(ParseEach(names, parse).error);
      }
    }
  }

  /** Reading one more file after a successful prefix. */
  lemma ParseEachExtend<A>(names: seq<string>, i: nat, parse: string -> Result<A>, ts: seq<A>)
    requires i < |names| && ParseEach(names[..i], parse) == Ok(ts)
    ensures parse(names[i]).Err? ==> ParseEach(names[..i + 1], parse) == Err(parse(names[i]).error)
    ensures parse(names[i]).Ok? ==> ParseEach(names[..i + 1], parse) == Ok(ts + [parse(names[i]).value])
  {
    assert names[..i + 1][..i] == names[..i];
  }

  /** Once a prefix of the file list fails, reading the whole list fails the same way. */
  lemma {:induction false} ParseEachStops<A>(names: seq<string>, i: nat, parse: string -> Result<A>)
    requires i <= |names| && ParseEach(names[..i], parse).Err?
    ensures ParseEach(names, parse) == ParseEach(names[..i], parse)
    decreases |names| - i
  {
    if i < |names| {
      assert names[..i + 1][..i] == names[..i];
      ParseEachStops(names, i + 1, parse);
    } else {
      assert names[..i] == names;
    }
  }

  /** Reading one collision file by its path. */
  function FileParser(read: string -> CollisionFile): string -> Result<FileTable>
  {
    path => FileTableOf(path, read(path))
  }

  /** The per-file tables, in order; each carries one rate per header temperature. */
  function ParseFiles(names: seq<string>, read: string -> CollisionFile): (r: Result<seq<FileTable>>)
    ensures r.Ok? ==> |r.value| == |names|
    ensures r.Ok? ==> forall k :: 0 <= k < |r.value| ==> forall i :: 0 <= i < |r.value[k].rows| ==>
      |r.value[k].rows[i].rates| == |r.value[k].temperatures|
    ensures r.Ok? ==> forall k :: 0 <= k < |names| ==> FileTableOf(names[k], read(names[k])) == Ok(r.value[k])
  {
    var r := ParseEach(names, FileParser(read));
    ParseEachOk(names, FileParser(read));
    assert r.Ok? ==> forall k :: 0 <= k < |names| ==> FileTableOf(names[k], read(names[k])) == Ok(r.value[k]);
    r
  }

  /** `read_collisions(species)`. */
  function ReadCollisionsSpec(species: seq<string>, glob: string -> seq<string>, read: string -> CollisionFile)
    : (r: Result<CollisionTable>)
    ensures Files.Gathered(species, Files.CollisionPattern, glob) == [] ==> r == Err(NoCollisionFiles)
    ensures r.Ok? ==> var names := Files.Gathered(species, Files.CollisionPattern, glob);
      forall k :: 0 <= k < |names| ==> FileTableOf(names[k], read(names[k])).Ok?
    ensures r.Ok? ==> WellFormed(r.value) && Ascending(r.value.temperatures)
  {
    match ParseFiles(Files.Gathered(species, Files.CollisionPattern, glob), read)
    case Err(e) => Err(e)
    case Ok(tables) => Concat(tables)
  }

  /** When every file reads, the result is the concatenation of their tables. */
  lemma ReadCollisionsSpecOk(species: seq<string>, glob: string -> seq<string>, read: string -> CollisionFile,
                             tables: seq<FileTable>)
    requires ParseFiles(Files.Gathered(species, Files.CollisionPattern, glob), read) == Ok(tables)
    ensures ReadCollisionsSpec(species, glob, read) == Concat(tables)
  {
  }

  /** The body of the file loop: the preamble, then the table. */
  method ReadCollisionFile(path: string, f: CollisionFile) returns (t: Result<FileTable>)
    ensures t == FileTableOf(path, f)
  {
    var nrows := ReadRowCount(f.lines);
    if nrows.None? {
      return Err(BadRowCount(path));
    }
    t := FileTableWith(path, f, nrows.value);
  }

  /** `read_collisions(species)`: the file loop appends one table per file. */
  method ReadCollisions(species: seq<string>, glob: string -> seq<string>, read: string -> CollisionFile)
    returns (r: Result<CollisionTable>)
    ensures r == ReadCollisionsSpec(species, glob, read)
  {
    var names := Files.Gather(species, Files.CollisionPattern, glob);
    var tables: seq<FileTable> := [];
    for i := 0 to |names|
      invariant ParseEach(names[..i], FileParser(read)) == Ok(tables)
    {
      var path := names[i];
      var t := ReadCollisionFile(path, read(path));
      assert t == FileParser(read)(path);
      ParseEachExtend(names, i, FileParser(read), tables);
      if t.Err? {
        ParseEachStops(names, i + 1, FileParser(read));
        return Err(t.error);
      }
      tables := tables + [t.value];
    }
    assert names[..|names|] == names;
    ReadCollisionsSpecOk(species, glob, read, tables);
    r := Concat(tables);
  }
}

=== FILE: common.dfy ===
/** Shared result types of the critical-density pipeline.

    Python raises an exception where the pipeline cannot go on; the model
    returns `Err` with one of the `Error` values below instead. */
module Common {

  /** A value that may be missing: pandas' NaN in a numeric cell. */
  datatype Option<+T> = None | Some(value: T)

  datatype Result<+T> = Ok(value: T) | Err(error: Error)

  function Min(a: int, b: int): int { if a <= b then a else b }

  datatype Error =
    /** `read_lines`: no file matched any requested species name. */
    | NoLineFile
    /** `read_lines`: more than one file matched. */
    | SeveralLineFiles
    /** The row count in a file preamble is not an integer (or the `#` is missing). */
    | BadRowCount(path: string)
    /** `read_csv` refuses a negative `nrows`. */
    | NegativeRowCount(path: string)
    /** A data row with more or fewer fields than the table has columns. */
    | MalformedRow(path: string)
    /** A file with no column at all. */
    | EmptyTable(path: string)
    /** No column label of the shape `A<lowercase>(s-1)`. */
    | NoEinsteinColumn
    /** A column looked up by label is absent (pandas `KeyError`). */
    | MissingColumn(name: string)
    /** A numeric operation on a textual column. */
    | NonNumericColumn(name: string)
    /** The requested upper level has no row (`.at[nu]` / `.loc[nu]` raise). */
    | UnknownLevel(level: int)
    /** A header token of a collision file that `float()` rejects. */
    | BadTemperature(path: string, token: string)
    /** The data columns cannot be labelled by the header (pandas "Length mismatch"). */
    | HeaderMismatch(path: string)
    /** The path has no second `_`-separated segment. */
    | NoCollider(path: string)
    /** A collision data row too short to hold its two level indices. */
    | MissingLevels(path: string)
    /** `pd.concat` of an empty list. */
    | NoCollisionFiles
    /** A header that names one temperature twice, which the column reindexing refuses. */
    | DuplicateTemperature(path: string)
    /** The abundance table has no column for the requested medium kind. */
    | UnknownKind(kind: string)
}

=== FILE: critical_density.dfy ===
/** `compute_critical_density`: the critical density of one upper level in
    one kind of medium, as a curve over the temperature columns of the
    (gap-filled) collision table.

    The denominator at a temperature is the sum, over the collision rows of
    the level whose collider has an abundance for that kind, of the rate
    times the abundance; the curve is the radiative sum divided by it, and
    undefined where it is zero. */
module CriticalDensity {
  import opened Common
  import opened Sums
  import opened Collisions

  /** `df_fc`: indexed by collider (`partners`), one column of fractional
      abundances per kind of medium. */
  datatype AbundanceTable = AbundanceTable(partners: seq<string>, columns: map<string, seq<real>>)

  /** Every column has one entry per index label, as in any data frame. */
  predicate Rectangular(fc: AbundanceTable)
  {
    forall kind :: kind in fc.columns ==> |fc.columns[kind]| == |fc.partners|
  }

  /** One point of the result: a temperature and the critical density there,
      `None` where it is undefined (NaN). */
  datatype Point = Point(temperature: real, density: Option<real>)

  // ---------------------------------------------------------------------
  // Selecting the level and grouping by collider
  // ---------------------------------------------------------------------

  /** `df_collisions.loc[nu]`: the rows of upper level `nu`, in table order. */
  function Selected(rows: seq<CollisionRow>, nu: int): (sel: seq<CollisionRow>)
    ensures forall r :: r in sel <==> r in rows && r.nu == nu as real
  {
    if rows == [] then []
    else (if rows[0].nu == nu as real then [rows[0]] else []) + Selected(rows[1..], nu)
  }

  /** Selecting keeps every row of the level as often as it occurs, and no other row. */
  lemma {:induction false} SelectedCount(rows: seq<CollisionRow>, nu: int, r: CollisionRow)
    ensures multiset(Selected(rows, nu))[r] == if r.nu == nu as real then multiset(rows)[r] else 0
  {
    if rows != [] {
      SelectedCount(rows[1..], nu, r);
      assert rows == [rows[0]] + rows[1..];
    }
  }

  /** Selecting from a reordering of the rows gives a reordering of the selection. */
  lemma SelectedPermutation(rows: seq<CollisionRow>, rows': seq<CollisionRow>, nu: int)
    requires multiset(rows) == multiset(rows')
    ensures multiset(Selected(rows, nu)) == multiset(Selected(rows', nu))
  {
    forall r ensures multiset(Selected(rows, nu))[r] == multiset(Selected(rows', nu))[r] {
      SelectedCount(rows, nu, r);
      SelectedCount(rows', nu, r);
    }
  }

  /** The rate of a row at column `j`; `sum()` skips an undefined cell. */
  function RateAt(r: CollisionRow, j: nat): real
  {
    if j < |r.rates| && r.rates[j].Some? then r.rates[j].value else 0.0
  }

  /** The colliders of the rows, each once, in order of first appearance. */
  function Colliders(rows: seq<CollisionRow>): (cs: seq<string>)
    ensures Distinct(cs)
    ensures forall c :: c in cs <==> exists i :: 0 <= i < |rows| && rows[i].collider == c
  {
    if rows == [] then []
    else
      var init := rows[..|rows| - 1];
      var last := rows[|rows| - 1].collider;
      var cs := Colliders(init);
      assert forall i :: 0 <= i < |init| ==> init[i] == rows[i];
      if last in cs then cs else cs + [last]
  }

  /** A row's rate at column `j` when its collider is `c`, and zero otherwise. */
  function RateTerm(c: string, j: nat): CollisionRow -> real
  {
    (r: CollisionRow) => if r.collider == c then RateAt(r, j) else 0.0
  }

  /** The sum over lower levels of the rates of collider `c` at column `j`. */
  function GroupSum(sel: seq<CollisionRow>, c: string, j: nat): real
  {
    Sum(sel, RateTerm(c, j))
  }

  /** One row of `groupby(level=[1]).sum()`. */
  datatype Group = Group(collider: string, rates: seq<real>)

  function GroupsOf(sel: seq<CollisionRow>, cs: seq<string>, width: nat): (gs: seq<Group>)
    ensures |gs| == |cs|
    ensures forall i :: 0 <= i < |gs| ==> gs[i].collider == cs[i] && |gs[i].rates| == width
    ensures forall i, j :: 0 <= i < |gs| && 0 <= j < width ==> gs[i].rates[j] == GroupSum(sel, cs[i], j)
  {
    if cs == [] then []
    else [Group(cs[0], seq(width, (j: int) requires 0 <= j < width => GroupSum(sel, cs[0], j)))] + GroupsOf(sel, cs[1..], width)
  }

  /** `groupby(level=[1]).sum()` over the selected rows: one group per collider. */
  function Grouped(sel: seq<CollisionRow>, width: nat): seq<Group>
  {
    GroupsOf(sel, Colliders(sel), width)
  }

  /** Each collider heads one group at most, and each group's rate at
      column `j` is the sum of its collider's rates there. */
  lemma GroupedByCollider(sel: seq<CollisionRow>, width: nat)
    ensures var gs := Grouped(sel, width);
      forall i, j :: 0 <= i < j < |gs| ==> gs[i].collider != gs[j].collider
    ensures var gs := Grouped(sel, width);
      forall i, j :: 0 <= i < |gs| && 0 <= j < width ==>
        |gs[i].rates| == width && gs[i].rates[j] == GroupSum(sel, gs[i].collider, j)
  {
    var cs := Colliders(sel);
    assert Grouped(sel, width) == GroupsOf(sel, cs, width);
  }

  /** Every group is the group of a collider some selected row has. */
  lemma GroupsHaveRows(sel: seq<CollisionRow>, width: nat)
    ensures var gs := Grouped(sel, width);
      forall i :: 0 <= i < |gs| ==> exists r :: 0 <= r < |sel| && sel[r].collider == gs[i].collider
  {
    var cs := Colliders(sel);
    var gs := GroupsOf(sel, cs, width);
    assert Grouped(sel, width) == gs;
    forall i | 0 <= i < |gs| ensures exists r :: 0 <= r < |sel| && sel[r].collider == gs[i].collider {
      assert gs[i].collider == cs[i] && cs[i] in cs;
    }
  }

  /** Every selected row's collider has a group. */
  lemma RowsHaveGroups(sel: seq<CollisionRow>, width: nat)
    ensures var gs := Grouped(sel, width);
      forall r :: 0 <= r < |sel| ==> exists i :: 0 <= i < |gs| && gs[i].collider == sel[r].collider
  {
    var cs := Colliders(sel);
    var gs := GroupsOf(sel, cs, width);
    assert Grouped(sel, width) == gs;
    forall r | 0 <= r < |sel| ensures exists i :: 0 <= i < |gs| && gs[i].collider == sel[r].collider {
      var c := sel[r].collider;
      assert c in cs;
      var i :| 0 <= i < |cs| && cs[i] == c;
      assert gs[i].collider == c;
    }
  }

  // ---------------------------------------------------------------------
  // The join with the abundance table
  // ---------------------------------------------------------------------

  /** The abundances the index labels equal to `c` carry, in index order. */
  function Matches(partners: seq<string>, fracs: seq<real>, c: string): (ms: seq<real>)
    requires |fracs| == |partners|
    ensures partners == [] ==> ms == []
  {
    if partners == [] then []
    else (if partners[0] == c then [fracs[0]] else []) + Matches(partners[1..], fracs[1..], c)
  }

  /** A collider the abundance table does not list has no match, so it drops out of the join. */
  lemma {:induction false} MatchesAbsent(partners: seq<string>, fracs: seq<real>, c: string)
    requires |fracs| == |partners|
    ensures c !in partners <==> Matches(partners, fracs, c) == []
  {
    if partners != [] {
      MatchesAbsent(partners[1..], fracs[1..], c);
      assert c !in partners <==> partners[0] != c && c !in partners[1..];
    }
  }

  /** A row of the merged table: the summed rates of a collider and its abundance. */
  datatype MergedRow = MergedRow(collider: string, rates: seq<real>, fraction: real)

  function MergeGroup(g: Group, ms: seq<real>): (m: seq<MergedRow>)
    ensures |m| == |ms|
    ensures forall k :: 0 <= k < |m| ==> m[k] == MergedRow(g.collider, g.rates, ms[k])
  {
    if ms == [] then [] else [MergedRow(g.collider, g.rates, ms[0])] + MergeGroup(g, ms[1..])
  }

  /** `pd.merge(groups, df_fc[[kind]], left_index=True, right_index=True)`:
      one merged row per pair of a group and an index label naming its
      collider. */
  function Merge(groups: seq<Group>, partners: seq<string>, fracs: seq<real>): (m: seq<MergedRow>)
    requires |fracs| == |partners|
  {
    if groups == [] then []
    else MergeGroup(groups[0], Matches(partners, fracs, groups[0].collider)) + Merge(groups[1..], partners, fracs)
  }

  /** Every match is the abundance of an index label equal to `c`. */
  lemma {:induction false} MatchesFrom(partners: seq<string>, fracs: seq<real>, c: string, k: nat)
    requires |fracs| == |partners| && k < |Matches(partners, fracs, c)|
    ensures exists p :: 0 <= p < |partners| && partners[p] == c && fracs[p] == Matches(partners, fracs, c)[k]
  {
    var here := if partners[0] == c then [fracs[0]] else [];
    if k < |here| {
      assert partners[0] == c && fracs[0] == Matches(partners, fracs, c)[k];
    } else {
      MatchesFrom(partners[1..], fracs[1..], c, k - |here|);
      var p :| 0 <= p < |partners[1..]| && partners[1..][p] == c && fracs[1..][p] == Matches(partners[1..], fracs[1..], c)[k - |here|];
      assert partners[p + 1] == c && fracs[p + 1] == Matches(partners, fracs, c)[k];
    }
  }

  /** The join is an inner join, one way: every merged row pairs a group with
      the abundance of an index label naming the group's collider. */
  lemma {:induction false} MergeFrom(groups: seq<Group>, partners: seq<string>, fracs: seq<real>, k: nat)
    requires |fracs| == |partners| && k < |Merge(groups, partners, fracs)|
    ensures var m := Merge(groups, partners, fracs)[k];
      && (exists g :: 0 <= g < |groups| && m.collider == groups[g].collider && m.rates == groups[g].rates)
      && (exists p :: 0 <= p < |partners| && partners[p] == m.collider && fracs[p] == m.fraction)
  {
    var ms := Matches(partners, fracs, groups[0].collider);
    var m := Merge(groups, partners, fracs)[k];
    if k < |ms| {
      assert m == MergedRow(groups[0].collider, groups[0].rates, ms[k]);
      MatchesFrom(partners, fracs, groups[0].collider, k);
    } else {
      MergeFrom(groups[1..], partners, fracs, k - |ms|);
      assert m == Merge(groups[1..], partners, fracs)[k - |ms|];
      var g :| 0 <= g < |groups[1..]| && m.collider == groups[1..][g].collider && m.rates == groups[1..][g].rates;
      assert groups[g + 1] == groups[1..][g];
    }
  }

  /** The other way: a group whose collider the index lists appears in the join. */
  lemma {:induction false} MergeCovers(groups: seq<Group>, partners: seq<string>, fracs: seq<real>, g: nat)
    requires |fracs| == |partners| && g < |groups| && groups[g].collider in partners
    ensures exists k :: (0 <= k < |Merge(groups, partners, fracs)| &&
      Merge(groups, partners, fracs)[k].collider == groups[g].collider &&
      Merge(groups, partners, fracs)[k].rates == groups[g].rates)
  {
    if g == 0 {
      MergeHead(groups, partners, fracs);
    } else {
      assert groups[1..][g - 1] == groups[g];
      MergeCovers(groups[1..], partners, fracs, g - 1);
      var tail := Merge(groups[1..], partners, fracs);
      var k :| 0 <= k < |tail| && tail[k].collider == groups[g].collider && tail[k].rates == groups[g].rates;
      var h := MergeTail(groups, partners, fracs, k);
      assert Merge(groups, partners, fracs)[h + k] == tail[k];
    }
  }

  /** The first group's rows open the join when its collider is listed. */
  lemma MergeHead(groups: seq<Group>, partners: seq<string>, fracs: seq<real>)
    requires |fracs| == |partners| && groups != [] && groups[0].collider in partners
    ensures |Merge(groups, partners, fracs)| > 0
    ensures Merge(groups, partners, fracs)[0].collider == groups[0].collider
    ensures Merge(groups, partners, fracs)[0].rates == groups[0].rates
  {
    MatchesAbsent(partners, fracs, groups[0].collider);
  }

  /** The join of the later groups follows the first group's rows, of which
      there are `h`. */
  lemma MergeTail(groups: seq<Group>, partners: seq<string>, fracs: seq<real>, k: nat) returns (h: nat)
    requires |fracs| == |partners| && groups != [] && k < |Merge(groups[1..], partners, fracs)|
    ensures h + k < |Merge(groups, partners, fracs)|
    ensures Merge(groups, partners, fracs)[h + k] == Merge(groups[1..], partners, fracs)[k]
  {
    var head := MergeGroup(groups[0], Matches(partners, fracs, groups[0].collider));
    h := |head|;
  }

  // ---------------------------------------------------------------------
  // Weighting and summing: the in-place column loop
  // ---------------------------------------------------------------------

  /** A merged row whose first `upto` rate columns are multiplied by its abundance. */
  function WeightRow(m: MergedRow, upto: nat): MergedRow
  {
    m.(rates := seq(|m.rates|, c requires 0 <= c < |m.rates| => if c < upto then m.rates[c] * m.fraction else m.rates[c]))
  }

  function Weighted(rows: seq<MergedRow>, upto: nat): (w: seq<MergedRow>)
    ensures |w| == |rows|
    ensures forall i :: 0 <= i < |w| ==> w[i] == WeightRow(rows[i], upto)
  {
    seq(|rows|, i requires 0 <= i < |rows| => WeightRow(rows[i], upto))
  }

  /** A cell of column `j`, zero for a row too short to have one. */
  function Cell(j: nat): MergedRow -> real
  {
    (m: MergedRow) => if j < |m.rates| then m.rates[j] else 0.0
  }

  /** `sum()` over the rows, one total per temperature column. */
  function Totals(rows: seq<MergedRow>, width: nat): (totals: seq<real>)
    ensures |totals| == width
    ensures forall j :: 0 <= j < width ==> totals[j] == Sum(rows, Cell(j))
  {
    seq(width, (j: int) requires 0 <= j < width => Sum(rows, Cell(j)))
  }

  /** The merged table that `for col in ...: df[col] *= df[kind]` updates in place. */
  class MergedTable {
    var rows: seq<MergedRow>
    const width: nat

    ghost predicate Valid()
      reads this
    {
      forall i :: 0 <= i < |rows| ==> |rows[i].rates| == width
    }

    constructor (rows: seq<MergedRow>, width: nat)
      requires forall i :: 0 <= i < |rows| ==> |rows[i].rates| == width
      ensures Valid() && this.rows == rows && this.width == width
    {
      this.rows := rows;
      this.width := width;
    }

    /** Multiplies every temperature column by the abundance column, one
        column at a time. */
    method WeightColumns()
      requires Valid()
      modifies this
      ensures Valid()
      ensures rows == Weighted(old(rows), width)
    {
      assert old(rows) == Weighted(old(rows), 0) by {
        forall i | 0 <= i < |rows| ensures rows[i] == WeightRow(rows[i], 0) {
          assert rows[i].rates == WeightRow(rows[i], 0).rates;
        }
      }
      for j := 0 to width
        invariant Valid()
        invariant rows == Weighted(old(rows), j)
      {
        var current := rows;
        rows := seq(|current|, i requires 0 <= i < |current| && j < |current[i].rates| =>
          current[i].(rates := current[i].rates[j := current[i].rates[j] * current[i].fraction]));
        assert rows == Weighted(old(rows), j + 1) by {
          forall i | 0 <= i < |rows| ensures rows[i] == WeightRow(old(rows)[i], j + 1) {
            var before := old(rows)[i];
            assert current[i] == WeightRow(before, j);
            assert |rows[i].rates| == |before.rates|;
            forall c | 0 <= c < |before.rates| ensures rows[i].rates[c] == WeightRow(before, j + 1).rates[c] {
            }
            assert rows[i].rates == WeightRow(before, j + 1).rates;
          }
        }
      }
    }

    /** `drop(kind, 1).sum()`: the column totals. */
    function ColumnTotals(): (totals: seq<real>)
      reads this
      ensures totals == Totals(rows, width)
    {
      Totals(rows, width)
    }
  }

  // ---------------------------------------------------------------------
  // The quotient and the whole computation
  // ---------------------------------------------------------------------

  /** `sum_einstein_coefs / total`, with an infinite quotient turned into NaN:
      undefined exactly when the total is zero. */
  function Quotient(a: real, d: real): (q: Option<real>)
    ensures q.None? <==> d == 0.0
    ensures q.Some? ==> q.value * d == a
  {
    if d == 0.0 then None else Some(a / d)
  }

  function Curve(temps: seq<real>, a: real, totals: seq<real>): (curve: seq<Point>)
    requires |totals| == |temps|
    ensures |curve| == |temps|
    ensures forall j :: 0 <= j < |temps| ==> curve[j] == Point(temps[j], Quotient(a, totals[j]))
  {
    seq(|temps|, j requires 0 <= j < |temps| => Point(temps[j], Quotient(a, totals[j])))
  }

  /** `compute_critical_density(kind, nu, a, df_collisions, df_fc)`. */
  function CriticalDensitySpec(kind: string, nu: int, a: real, t: CollisionTable, fc: AbundanceTable)
    : Result<seq<Point>>
    requires Rectangular(fc)
  {
    var sel := Selected(t.rows, nu);
    if sel == [] then Err(UnknownLevel(nu))
    else if kind !in fc.columns then Err(UnknownKind(kind))
    else
      var width := |t.temperatures|;
      var merged := Merge(Grouped(sel, width), fc.partners, fc.columns[kind]);
      Ok(Curve(t.temperatures, a, Totals(Weighted(merged, width), width)))
  }

  /** Every merged row carries one rate per temperature column. */
  lemma {:induction false} MergeWidth(groups: seq<Group>, partners: seq<string>, fracs: seq<real>, width: nat)
    requires |fracs| == |partners|
    requires forall i :: 0 <= i < |groups| ==> |groups[i].rates| == width
    ensures forall i :: 0 <= i < |Merge(groups, partners, fracs)| ==> |Merge(groups, partners, fracs)[i].rates| == width
  {
    if groups != [] {
      MergeWidth(groups[1..], partners, fracs, width);
    }
  }

  /** `compute_critical_density`: selection, grouping and the join as values,
      then the merged table weighted in place and summed. */
  method ComputeCriticalDensity(kind: string, nu: int, a: real, t: CollisionTable, fc: AbundanceTable)
    returns (r: Result<seq<Point>>)
    requires Rectangular(fc)
    ensures r == CriticalDensitySpec(kind, nu, a, t, fc)
  {
    var sel := Selected(t.rows, nu);
    if sel == [] {
      return Err(UnknownLevel(nu));
    }
    if kind !in fc.columns {
      return Err(UnknownKind(kind));
    }
    var width := |t.temperatures|;
    var groups := Grouped(sel, width);
    var merged := Merge(groups, fc.partners, fc.columns[kind]);
    MergeWidth(groups, fc.partners, fc.columns[kind], width);
    var table := new MergedTable(merged, width);
    table.WeightColumns();
    var totals := table.ColumnTotals();
    r := Ok(Curve(t.temperatures, a, totals));
  }

  // ---------------------------------------------------------------------
  // What the denominator is
  // ---------------------------------------------------------------------

  function Id(x: real): real { x }

  /** The abundance of collider `c`: the sum of the abundances of the index
      labels equal to `c` (zero when it has none). */
  function Abundance(partners: seq<string>, fracs: seq<real>, c: string): real
    requires |fracs| == |partners|
  {
    Sum(Matches(partners, fracs, c), Id)
  }

  /** With a duplicate-free index, a listed collider's abundance is its entry. */
  lemma {:induction false} AbundanceListed(partners: seq<string>, fracs: seq<real>, p: nat)
    requires |fracs| == |partners| && Distinct(partners) && p < |partners|
    ensures Abundance(partners, fracs, partners[p]) == fracs[p]
  {
    var c := partners[p];
    if p == 0 {
      assert c !in partners[1..] by {
        forall k | 0 <= k < |partners[1..]| ensures partners[1..][k] != c {
          assert partners[k + 1] != partners[0];
        }
      }
      MatchesAbsent(partners[1..], fracs[1..], c);
      assert Matches(partners, fracs, c) == [fracs[0]];
      assert Sum([fracs[0]], Id) == Id(fracs[0]) + Sum([fracs[0]][1..], Id);
      assert [fracs[0]][1..] == [];
    } else {
      assert partners[0] != c;
      assert Distinct(partners[1..]) by {
        forall i, k | 0 <= i < k < |partners[1..]| ensures partners[1..][i] != partners[1..][k] {
          assert partners[i + 1] != partners[k + 1];
        }
      }
      assert partners[1..][p - 1] == c;
      AbundanceListed(partners[1..], fracs[1..], p - 1);
      assert Matches(partners, fracs, c) == Matches(partners[1..], fracs[1..], c);
    }
  }

  /** A collider the abundance table does not list contributes nothing. */
  lemma AbundanceUnlisted(partners: seq<string>, fracs: seq<real>, c: string)
    requires |fracs| == |partners| && c !in partners
    ensures Abundance(partners, fracs, c) == 0.0
  {
    MatchesAbsent(partners, fracs, c);
  }

  /** The abundance of every collider, as a function. */
  function AbundanceOf(partners: seq<string>, fracs: seq<real>): string -> real
    requires |fracs| == |partners|
  {
    (c: string) => Abundance(partners, fracs, c)
  }

  /** One selected row's share of the denominator at column `j`. */
  function RowTerm(ab: string -> real, j: nat): CollisionRow -> real
  {
    (r: CollisionRow) => RateAt(r, j) * ab(r.collider)
  }

  /** The denominator at column `j`, row by row: the sum over the rows of
      level `nu` of rate times abundance. */
  function Denominator(rows: seq<CollisionRow>, nu: int, partners: seq<string>, fracs: seq<real>, j: nat): real
    requires |fracs| == |partners|
  {
    Sum(Selected(rows, nu), RowTerm(AbundanceOf(partners, fracs), j))
  }

  /** One collider's share of the denominator at column `j`: the sum of its
      rates over the lower levels, times its abundance. */
  function ColliderTerm(sel: seq<CollisionRow>, ab: string -> real, j: nat): string -> real
  {
    (c: string) => GroupSum(sel, c, j) * ab(c)
  }

  /** Rate times abundance where the row's collider is `c`, zero elsewhere. */
  function Pair(ab: string -> real, j: nat): (string, CollisionRow) -> real
  {
    (c: string, r: CollisionRow) => if r.collider == c then RateAt(r, j) * ab(c) else 0.0
  }

  /** Summing collider by collider, in any duplicate-free order that lists
      every collider of the rows, gives the row-by-row denominator: the
      grouping and the order of the colliders do not matter. */
  lemma AnyColliderOrder(sel: seq<CollisionRow>, cs: seq<string>, ab: string -> real, j: nat)
    requires Distinct(cs)
    requires forall i :: 0 <= i < |sel| ==> sel[i].collider in cs
    ensures Sum(cs, ColliderTerm(sel, ab, j)) == Sum(sel, RowTerm(ab, j))
  {
    CollidersInner(sel, cs, ab, j);
    SumSwap(cs, sel, Pair(ab, j));
    RowsOuter(sel, cs, ab, j);
  }

  lemma CollidersInner(sel: seq<CollisionRow>, cs: seq<string>, ab: string -> real, j: nat)
    ensures Sum(cs, ColliderTerm(sel, ab, j)) == Sum(cs, Inner(sel, Pair(ab, j)))
  {
    var h := Pair(ab, j);
    forall i | 0 <= i < |cs| ensures ColliderTerm(sel, ab, j)(cs[i]) == Inner(sel, h)(cs[i]) {
      ColliderInner(sel, cs[i], ab, j);
    }
    SumCongruence(cs, ColliderTerm(sel, ab, j), Inner(sel, h));
  }

  lemma ColliderInner(sel: seq<CollisionRow>, c: string, ab: string -> real, j: nat)
    ensures ColliderTerm(sel, ab, j)(c) == Inner(sel, Pair(ab, j))(c)
  {
    var h := Pair(ab, j);
    forall k | 0 <= k < |sel| ensures Slice(h, c)(sel[k]) == ab(c) * RateTerm(c, j)(sel[k]) {
    }
    SumScale(sel, Slice(h, c), RateTerm(c, j), ab(c));
  }

  lemma RowsOuter(sel: seq<CollisionRow>, cs: seq<string>, ab: string -> real, j: nat)
    requires Distinct(cs)
    requires forall i :: 0 <= i < |sel| ==> sel[i].collider in cs
    ensures Sum(sel, Outer(cs, Pair(ab, j))) == Sum(sel, RowTerm(ab, j))
  {
    var h := Pair(ab, j);
    forall i | 0 <= i < |sel| ensures Outer(cs, h)(sel[i]) == RowTerm(ab, j)(sel[i]) {
      var r := sel[i];
      forall k | 0 <= k < |cs| && cs[k] != r.collider ensures Flip(h, r)(cs[k]) == 0.0 {
      }
      SumSingle(cs, Flip(h, r), r.collider);
    }
    SumCongruence(sel, Outer(cs, h), RowTerm(ab, j));
  }

  /** A merged row's share of the total at column `j` once weighted. */
  function MergedTerm(j: nat): MergedRow -> real
  {
    (m: MergedRow) => Cell(j)(m) * m.fraction
  }

  lemma {:induction false} WeightedTotal(rows: seq<MergedRow>, width: nat, j: nat)
    requires j < width
    ensures Sum(Weighted(rows, width), Cell(j)) == Sum(rows, MergedTerm(j))
  {
    if rows != [] {
      assert Weighted(rows, width)[1..] == Weighted(rows[1..], width);
      WeightedTotal(rows[1..], width, j);
    }
  }

  lemma {:induction false} MergeGroupTotal(g: Group, ms: seq<real>, j: nat)
    ensures Sum(MergeGroup(g, ms), MergedTerm(j)) == Cell(j)(MergedRow(g.collider, g.rates, 0.0)) * Sum(ms, Id)
  {
    if ms != [] {
      MergeGroupTotal(g, ms[1..], j);
      assert MergeGroup(g, ms)[1..] == MergeGroup(g, ms[1..]);
    }
  }

  /** A group's share of the denominator at column `j`. */
  function GroupTerm(ab: string -> real, j: nat): Group -> real
  {
    (g: Group) => Cell(j)(MergedRow(g.collider, g.rates, 0.0)) * ab(g.collider)
  }

  lemma {:induction false} MergeTotal(groups: seq<Group>, partners: seq<string>, fracs: seq<real>, j: nat)
    requires |fracs| == |partners|
    ensures Sum(Merge(groups, partners, fracs), MergedTerm(j)) == Sum(groups, GroupTerm(AbundanceOf(partners, fracs), j))
  {
    if groups != [] {
      var g := groups[0];
      var head := MergeGroup(g, Matches(partners, fracs, g.collider));
      var tail := Merge(groups[1..], partners, fracs);
      assert Merge(groups, partners, fracs) == head + tail;
      MergeTotal(groups[1..], partners, fracs, j);
      SumAppend(head, tail, MergedTerm(j));
      MergeGroupTotal(g, Matches(partners, fracs, g.collider), j);
      assert Sum(head, MergedTerm(j)) == GroupTerm(AbundanceOf(partners, fracs), j)(g);
    }
  }

  lemma {:induction false} GroupsTotal(sel: seq<CollisionRow>, cs: seq<string>, width: nat, ab: string -> real, j: nat)
    requires j < width
    ensures Sum(GroupsOf(sel, cs, width), GroupTerm(ab, j)) == Sum(cs, ColliderTerm(sel, ab, j))
  {
    if cs != [] {
      GroupsTotal(sel, cs[1..], width, ab, j);
      var gs := GroupsOf(sel, cs, width);
      assert gs[1..] == GroupsOf(sel, cs[1..], width);
      assert gs[0].rates[j] == GroupSum(sel, cs[0], j);
      assert gs[0].collider == cs[0] && j < |gs[0].rates|;
      assert Cell(j)(MergedRow(gs[0].collider, gs[0].rates, 0.0)) == gs[0].rates[j];
      assert GroupTerm(ab, j)(gs[0]) == ColliderTerm(sel, ab, j)(cs[0]);
    }
  }

  /** The column total the computation divides by is the row-by-row denominator. */
  lemma TotalIsDenominator(t: CollisionTable, nu: int, partners: seq<string>, fracs: seq<real>, j: nat)
    requires |fracs| == |partners| && j < |t.temperatures|
    ensures
      var width := |t.temperatures|;
      var sel := Selected(t.rows, nu);
      Totals(Weighted(Merge(Grouped(sel, width), partners, fracs), width), width)[j]
        == Denominator(t.rows, nu, partners, fracs, j)
  {
    var width := |t.temperatures|;
    var sel := Selected(t.rows, nu);
    var groups := Grouped(sel, width);
    WeightedTotal(Merge(groups, partners, fracs), width, j);
    MergeTotal(groups, partners, fracs, j);
    GroupsTotal(sel, Colliders(sel), width, AbundanceOf(partners, fracs), j);
    AnyColliderOrder(sel, Colliders(sel), AbundanceOf(partners, fracs), j);
  }

  /** The result: the level must have rows and the kind a column; then one
      point per temperature column, whose density is the radiative sum over
      the row-by-row denominator, undefined where that is zero. */
  lemma CriticalDensityMeaning(kind: string, nu: int, a: real, t: CollisionTable, fc: AbundanceTable)
    requires Rectangular(fc)
    ensures Selected(t.rows, nu) == [] ==> CriticalDensitySpec(kind, nu, a, t, fc) == Err(UnknownLevel(nu))
    ensures Selected(t.rows, nu) != [] && kind !in fc.columns ==>
      CriticalDensitySpec(kind, nu, a, t, fc) == Err(UnknownKind(kind))
    ensures CriticalDensitySpec(kind, nu, a, t, fc).Ok? <==> Selected(t.rows, nu) != [] && kind in fc.columns
    ensures CriticalDensitySpec(kind, nu, a, t, fc).Ok? ==>
      var curve := CriticalDensitySpec(kind, nu, a, t, fc).value;
      && |curve| == |t.temperatures|
      && forall j :: 0 <= j < |curve| ==>
        curve[j] == Point(t.temperatures[j], Quotient(a, Denominator(t.rows, nu, fc.partners, fc.columns[kind], j)))
  {
    if Selected(t.rows, nu) != [] && kind in fc.columns {
      forall j | 0 <= j < |t.temperatures| {
        TotalIsDenominator(t, nu, fc.partners, fc.columns[kind], j);
      }
    }
  }

  /** Reordering the rows of the collision table changes nothing in the result. */
  lemma RowOrderIndependent(kind: string, nu: int, a: real, t: CollisionTable, t': CollisionTable, fc: AbundanceTable)
    requires Rectangular(fc)
    requires t'.temperatures == t.temperatures && multiset(t'.rows) == multiset(t.rows)
    ensures CriticalDensitySpec(kind, nu, a, t', fc) == CriticalDensitySpec(kind, nu, a, t, fc)
  {
    var sel, sel' := Selected(t.rows, nu), Selected(t'.rows, nu);
    SelectedPermutation(t.rows, t'.rows, nu);
    assert |sel| == |multiset(sel)| == |multiset(sel')| == |sel'|;
    CriticalDensityMeaning(kind, nu, a, t, fc);
    CriticalDensityMeaning(kind, nu, a, t', fc);
    if sel != [] && kind in fc.columns {
      var curve, curve' := CriticalDensitySpec(kind, nu, a, t, fc).value, CriticalDensitySpec(kind, nu, a, t', fc).value;
      forall j | 0 <= j < |t.temperatures| ensures curve'[j] == curve[j] {
        SumPermutation(sel, sel', RowTerm(AbundanceOf(fc.partners, fc.columns[kind]), j));
      }
      assert curve' == curve;
    }
  }

  /** A single transition `nu = 2, nl = 1` of collider `H2` with rates
      1e-10 and 2e-10 at 50 K and 100 K, an `H2` abundance of 0.5 in a dense
      medium and a radiative sum of 1e-4: the critical density at 50 K is
      1e-4 / (0.5 * 1e-10). */
  lemma SingleColliderExample()
    ensures
      var t := CollisionTable([50.0, 100.0], [CollisionRow(2.0, 1.0, "H2", [Some(0.0000000001), Some(0.0000000002)])]);
      var fc := AbundanceTable(["H2"], map["dense" := [0.5]]);
      var r := CriticalDensitySpec("dense", 2, 0.0001, t, fc);
      && r.Ok? && |r.value| == 2
      && r.value[0] == Point(50.0, Some(0.0001 / (0.5 * 0.0000000001)))
      && r.value[1] == Point(100.0, Some(0.0001 / (0.5 * 0.0000000002)))
  {
    var row := CollisionRow(2.0, 1.0, "H2", [Some(0.0000000001), Some(0.0000000002)]);
    var t := CollisionTable([50.0, 100.0], [row]);
    var fc := AbundanceTable(["H2"], map["dense" := [0.5]]);
    assert Rectangular(fc);
    assert Selected(t.rows, 2) == [row];
    CriticalDensityMeaning("dense", 2, 0.0001, t, fc);
    var curve := CriticalDensitySpec("dense", 2, 0.0001, t, fc).value;
    SingleColliderDenominator(row, 0);
    SingleColliderDenominator(row, 1);
    assert RateAt(row, 0) == 0.0000000001 && RateAt(row, 1) == 0.0000000002;
    assert curve[0] == Point(50.0, Quotient(0.0001, 0.0000000001 * 0.5));
    assert curve[1] == Point(100.0, Quotient(0.0001, 0.0000000002 * 0.5));
  }

  /** With one row, whose collider is the only abundance entry, the
      denominator is that row's rate times the abundance. */
  lemma SingleColliderDenominator(row: CollisionRow, j: nat)
    requires row.nu == 2.0 && row.collider == "H2"
    ensures Denominator([row], 2, ["H2"], [0.5], j) == RateAt(row, j) * 0.5
  {
    AbundanceListed(["H2"], [0.5], 0);
    assert Selected([row], 2) == [row];
    var term := RowTerm(AbundanceOf(["H2"], [0.5]), j);
    assert Sum([row], term) == term(row) + Sum([row][1..], term);
    assert [row][1..] == [];
  }
}

=== FILE: einstein.dfy ===
/** `compute_sum_einstein_coefs`: the total radiative de-excitation rate of
    an upper level, the sum of the Einstein A-coefficients of every
    transition that leaves it. */
module Einstein {
  import opened Common
  import opened Sums
  import opened Lines

  predicate IsLower(c: char) { 'a' <= c <= 'z' }

  /** Labels of the shape `A<lowercase letters>(s-1)`, such as `Aij(s-1)` or `Aein(s-1)`. */
  predicate IsEinsteinLabel(s: string)
  {
    |s| >= 7 && s[0] == 'A' && s[|s| - 5..] == "(s-1)" &&
    forall i :: 1 <= i < |s| - 5 ==> IsLower(s[i])
  }

  /** Position of the first column whose label is an Einstein-coefficient label. */
  function EinsteinColumn(labels: seq<string>): (r: Option<nat>)
    ensures r.None? <==> forall j :: 0 <= j < |labels| ==> !IsEinsteinLabel(labels[j])
    ensures r.Some? ==> r.value < |labels| && IsEinsteinLabel(labels[r.value])
    ensures r.Some? ==> forall j :: 0 <= j < r.value ==> !IsEinsteinLabel(labels[j])
  {
    if labels == [] then None
    else if IsEinsteinLabel(labels[0]) then Some(0)
    else match EinsteinColumn(labels[1..])
      case None => None
      case Some(k) => Some(k + 1)
  }

  /** A numeric column as reals; `None` for a text column. */
  function Numbers(c: Column): (r: Option<seq<real>>)
    ensures r.Some? <==> !c.TextColumn?
    ensures r.Some? ==> |r.value| == Height(c)
  {
    match c
    case IntColumn(xs) => Some(seq(|xs|, i requires 0 <= i < |xs| => xs[i] as real))
    case RealColumn(xs) => Some(xs)
    case TextColumn(_) => None
  }

  /** A transition as the sum sees it: its upper level and its coefficient. */
  datatype Transition = Transition(upper: real, coef: real)

  function Coef(t: Transition): real { t.coef }

  /** The transitions of a table whose `nu` column and Einstein column are both numeric. */
  function Transitions(t: LineTable): (r: Option<seq<Transition>>)
    requires WellFormed(t)
    ensures r.Some? ==> EinsteinColumn(t.labels).Some? && IndexOf(t.labels, "nu").Some?
    ensures r.Some? ==> |r.value| == Height(t.columns[IndexOf(t.labels, "nu").value])
  {
    var a := EinsteinColumn(t.labels);
    var l := IndexOf(t.labels, "nu");
    if a.None? || l.None? then None
    else
      var levels := Numbers(t.columns[l.value]);
      var coefs := Numbers(t.columns[a.value]);
      if levels.None? || coefs.None? then None
      else Some(seq(|levels.value|, i requires 0 <= i < |levels.value| => Transition(levels.value[i], coefs.value[i])))
  }

  /** The rows kept by `df[df["nu"] == nu]`, in order. */
  function AtLevel(ts: seq<Transition>, level: int): (r: seq<Transition>)
    ensures forall i :: 0 <= i < |r| ==> r[i].upper == level as real && r[i] in ts
    ensures forall x :: x in ts && x.upper == level as real ==> x in r
  {
    if ts == [] then []
    else (if ts[0].upper == level as real then [ts[0]] else []) + AtLevel(ts[1..], level)
  }

  /** Nothing is selected exactly when no transition leaves the level. */
  lemma AtLevelEmpty(ts: seq<Transition>, level: int)
    ensures AtLevel(ts, level) == [] <==> forall i :: 0 <= i < |ts| ==> ts[i].upper != level as real
  {
  }

  /** `compute_sum_einstein_coefs(df_lines, nu)`. */
  function SumEinsteinCoefs(t: LineTable, nu: int): (r: Result<real>)
    requires WellFormed(t)
    ensures EinsteinColumn(t.labels).None? ==> r == Err(NoEinsteinColumn)
    ensures EinsteinColumn(t.labels).Some? && "nu" !in t.labels ==> r == Err(MissingColumn("nu"))
    ensures Transitions(t).Some? && AtLevel(Transitions(t).value, nu) == [] ==> r == Err(UnknownLevel(nu))
    ensures Transitions(t).Some? && AtLevel(Transitions(t).value, nu) != [] ==>
      r == Ok(Sum(AtLevel(Transitions(t).value, nu), Coef))
    ensures r.Ok? ==> Transitions(t).Some?
  {
    match EinsteinColumn(t.labels)
    case None => Err(NoEinsteinColumn)
    case Some(a) =>
      match IndexOf(t.labels, "nu")
      case None => Err(MissingColumn("nu"))
      case Some(l) =>
        match Numbers(t.columns[l])
        // a text `nu` column compares unequal to every level: nothing is selected
        case None => Err(UnknownLevel(nu))
        case Some(levels) =>
          if forall i :: 0 <= i < |levels| ==> levels[i] != nu as real then
            (if Transitions(t).Some? then AtLevelEmpty(Transitions(t).value, nu); Err(UnknownLevel(nu))
             else Err(UnknownLevel(nu)))
          else if Numbers(t.columns[a]).None? then Err(NonNumericColumn(t.labels[a]))
          else
            var ts := Transitions(t).value;
            assert forall i :: 0 <= i < |ts| ==> ts[i].upper == levels[i];
            assert exists i :: 0 <= i < |ts| && ts[i].upper == nu as real;
            AtLevelEmpty(ts, nu);
            Ok(Sum(AtLevel(ts, nu), Coef))
  }

  /** How often each transition is selected: as often as it occurs, when at the level. */
  lemma {:induction false} AtLevelCount(ts: seq<Transition>, level: int, x: Transition)
    ensures multiset(AtLevel(ts, level))[x] == if x.upper == level as real then multiset(ts)[x] else 0
  {
    if ts != [] {
      AtLevelCount(ts[1..], level, x);
      assert ts == [ts[0]] + ts[1..];
    }
  }

  /** The selection depends only on which transitions there are, not on their order. */
  lemma AtLevelPermutation(ts: seq<Transition>, us: seq<Transition>, level: int)
    requires multiset(ts) == multiset(us)
    ensures multiset(AtLevel(ts, level)) == multiset(AtLevel(us, level))
  {
    forall x ensures multiset(AtLevel(ts, level))[x] == multiset(AtLevel(us, level))[x] {
      AtLevelCount(ts, level, x);
      AtLevelCount(us, level, x);
    }
  }

  /** The radiative sum of a level does not depend on the order of the transitions. */
  lemma LevelSumOrderIndependent(ts: seq<Transition>, us: seq<Transition>, level: int)
    requires multiset(ts) == multiset(us)
    ensures AtLevel(ts, level) == [] <==> AtLevel(us, level) == []
    ensures Sum(AtLevel(ts, level), Coef) == Sum(AtLevel(us, level), Coef)
  {
    AtLevelPermutation(ts, us, level);
    SumPermutation(AtLevel(ts, level), AtLevel(us, level), Coef);
    if AtLevel(ts, level) == [] {
      assert |multiset(AtLevel(us, level))| == 0;
    }
    if AtLevel(us, level) == [] {
      assert |multiset(AtLevel(ts, level))| == 0;
    }
  }

  /** The sum of a level equals the sum of all coefficients with each one
      counted only when its transition leaves that level. */
  lemma {:induction false} LevelSumMasked(ts: seq<Transition>, level: int)
    ensures Sum(AtLevel(ts, level), Coef) ==
      Sum(ts, (x: Transition) => if x.upper == level as real then x.coef else 0.0)
  {
    if ts != [] {
      LevelSumMasked(ts[1..], level);
      var head := if ts[0].upper == level as real then [ts[0]] else [];
      SumAppend(head, AtLevel(ts[1..], level), Coef);
    }
  }
}

=== FILE: files.dfy ===
/** File discovery as both readers do it: for every requested species name,
    in order, append the sorted matches of that species' glob pattern.

    The file system itself is a parameter: `glob(pattern)` is the sorted list
    of existing paths that `glob.glob` would return for `pattern`. */
module Files {

  /** Glob pattern of the radiative-transition file of one species. */
  function LinePattern(species: string): string
  {
    "./data/Lines/line_" + species + ".dat"
  }

  /** Glob pattern of the collision files of one species. */
  function CollisionPattern(species: string): string
  {
    "./data/Collisions/*" + species + "[_.]dat"
  }

  /** The list the reader's loop builds: the matches of the first `|species|`
      patterns, one after the other. */
  function Gathered(species: seq<string>, pattern: string -> string, glob: string -> seq<string>): seq<string>
  {
    if species == [] then []
    else Gathered(species[..|species| - 1], pattern, glob) + glob(pattern(species[|species| - 1]))
  }

  /** The `list_filenames += sorted(glob.glob(...))` loop. */
  method Gather(species: seq<string>, pattern: string -> string, glob: string -> seq<string>)
    returns (names: seq<string>)
    ensures names == Gathered(species, pattern, glob)
    ensures forall p :: p in names <==> exists k :: 0 <= k < |species| && p in glob(pattern(species[k]))
  {
    names := [];
    for i := 0 to |species|
      invariant names == Gathered(species[..i], pattern, glob)
    {
      assert species[..i + 1][..i] == species[..i];
      names := names + glob(pattern(species[i]));
    }
    assert species[..|species|] == species;
    GatheredMembers(species, pattern, glob);
  }

  /** A path is gathered exactly when the pattern of some requested species matches it. */
  lemma {:induction false} GatheredMembers(species: seq<string>, pattern: string -> string, glob: string -> seq<string>)
    ensures forall p :: p in Gathered(species, pattern, glob) <==>
      exists k :: 0 <= k < |species| && p in glob(pattern(species[k]))
  {
    if species != [] {
      var init := species[..|species| - 1];
      GatheredMembers(init, pattern, glob);
      forall p | exists k :: 0 <= k < |species| && p in glob(pattern(species[k]))
        ensures p in Gathered(species, pattern, glob)
      {
        var k :| 0 <= k < |species| && p in glob(pattern(species[k]));
        if k < |species| - 1 {
          assert init[k] == species[k];
        }
      }
    }
  }

  /** Nothing is gathered exactly when no requested species' pattern matches anything. */
  lemma {:induction false} GatheredEmpty(species: seq<string>, pattern: string -> string, glob: string -> seq<string>)
    ensures Gathered(species, pattern, glob) == [] <==>
      forall k :: 0 <= k < |species| ==> glob(pattern(species[k])) == []
  {
    if species != [] {
      var init := species[..|species| - 1];
      GatheredEmpty(init, pattern, glob);
      if Gathered(species, pattern, glob) == [] {
        forall k | 0 <= k < |species| ensures glob(pattern(species[k])) == [] {
          if k < |species| - 1 {
            assert init[k] == species[k];
          }
        }
      }
    }
  }
}

=== FILE: interpolation.dfy ===
/** `process_collisions`: filling the gaps of each row of the collision
    table by linear interpolation, then dropping every temperature column
    that still has an undefined cell.

    A row is interpolated over column positions, not temperature values:
    `interpolate` uses `method='linear'`, which treats the columns as equally
    spaced. A cell is filled only when the row has a known value on both
    sides of it, the rule the comment of `process_collisions` states; the
    library's own default (`limit_direction='forward'`) would also carry the
    last known value into a trailing gap, which this model does not do. */
module Interpolation {
  import opened Common
  import opened Collisions

  /** The last known position before `j`, if any. */
  function PrevKnown(r: seq<Option<real>>, j: nat): (p: Option<nat>)
    requires j <= |r|
    ensures p.Some? ==> p.value < j && r[p.value].Some? && forall m :: p.value < m < j ==> r[m].None?
    ensures p.None? ==> forall m :: 0 <= m < j ==> r[m].None?
  {
    if j == 0 then None
    else if r[j - 1].Some? then Some(j - 1)
    else PrevKnown(r, j - 1)
  }

  /** The first known position at or after `s`, if any. */
  function NextKnown(r: seq<Option<real>>, s: nat): (q: Option<nat>)
    requires s <= |r|
    ensures q.Some? ==> s <= q.value < |r| && r[q.value].Some? && forall m :: s <= m < q.value ==> r[m].None?
    ensures q.None? ==> forall m :: s <= m < |r| ==> r[m].None?
    decreases |r| - s
  {
    if s == |r| then None
    else if r[s].Some? then Some(s)
    else NextKnown(r, s + 1)
  }

  /** The value at position `j` on the straight line through `(p, a)` and `(q, b)`. */
  function Lerp(a: real, b: real, p: nat, q: nat, j: nat): (v: real)
    requires p < j < q
    ensures (v - a) * (q - p) as real == (b - a) * (j - p) as real
    ensures Between(v, a, b)
  {
    var t := (j - p) as real / (q - p) as real;
    FractionBounds(j - p, q - p);
    LerpBetween(a, b, t);
    a + (b - a) * t
  }

  lemma FractionBounds(x: nat, y: nat)
    requires 0 < x < y
    ensures 0.0 < x as real / y as real < 1.0
  {
    assert x as real / y as real * y as real == x as real;
  }

  lemma MulNonnegative(x: real, y: real)
    requires 0.0 <= x && 0.0 <= y
    ensures 0.0 <= x * y
  {
  }

  lemma LerpBetween(a: real, b: real, t: real)
    requires 0.0 < t < 1.0
    ensures Between(a + (b - a) * t, a, b)
  {
    if a <= b {
      MulNonnegative(b - a, t);
      MulNonnegative(b - a, 1.0 - t);
      assert (b - a) * (1.0 - t) == (b - a) - (b - a) * t;
    } else {
      MulNonnegative(a - b, t);
      MulNonnegative(a - b, 1.0 - t);
      assert (a - b) * (1.0 - t) == (a - b) - (a - b) * t;
    }
  }

  /** The cell at position `j` after interpolation: a known value stays, and
      a gap with nothing known on one side of it stays a gap. */
  function FillAt(r: seq<Option<real>>, j: nat): (v: Option<real>)
    requires j < |r|
    ensures r[j].Some? ==> v == r[j]
    ensures r[j].None? && (forall m :: 0 <= m < j ==> r[m].None?) ==> v.None?
    ensures r[j].None? && (forall m :: j < m < |r| ==> r[m].None?) ==> v.None?
  {
    if r[j].Some? then r[j]
    else
      match (PrevKnown(r, j), NextKnown(r, j + 1))
      case (Some(p), Some(q)) => Some(Lerp(r[p].value, r[q].value, p, q, j))
      case _ => None
  }

  /** A row after interpolation: it keeps its length and its known values. */
  function FillRow(r: seq<Option<real>>): (f: seq<Option<real>>)
    ensures |f| == |r|
    ensures forall j :: 0 <= j < |r| && r[j].Some? ==> f[j] == r[j]
  {
    seq(|r|, j requires 0 <= j < |r| => FillAt(r, j))
  }

  /** Known values are kept; a gap is filled exactly when the row has a known
      value on each side of it, and then with the value on the straight line
      through the nearest two, which lies between them. */
  lemma FillRowCells(r: seq<Option<real>>, j: nat)
    requires j < |r|
    ensures r[j].Some? ==> FillRow(r)[j] == r[j]
    ensures FillRow(r)[j].Some? <==>
      exists p, q :: 0 <= p <= j <= q < |r| && r[p].Some? && r[q].Some?
    ensures r[j].None? && FillRow(r)[j].Some? ==>
      exists p, q :: 0 <= p < j < q < |r| && r[p].Some? && r[q].Some? &&
        (forall m :: p < m < q ==> r[m].None?) &&
        FillRow(r)[j].value == Lerp(r[p].value, r[q].value, p, q, j) &&
        Between(FillRow(r)[j].value, r[p].value, r[q].value)
  {
    if r[j].None? {
      var p, q := PrevKnown(r, j), NextKnown(r, j + 1);
      if p.Some? && q.Some? {
        assert forall m :: p.value < m < q.value ==> r[m].None? by {
          forall m | p.value < m < q.value ensures r[m].None? {
            if m > j {
              assert j + 1 <= m < q.value;
            }
          }
        }
      }
    }
  }

  predicate Between(v: real, a: real, b: real)
  {
    (a <= v <= b) || (b <= v <= a)
  }

  /** Gaps before the first known value are never filled (no backward
      extrapolation), and neither are gaps after the last one. */
  lemma EdgeGapsStay(r: seq<Option<real>>, j: nat)
    requires j < |r|
    requires (forall m :: 0 <= m <= j ==> r[m].None?) || (forall m :: j <= m < |r| ==> r[m].None?)
    ensures FillRow(r)[j] == None
  {
    FillRowCells(r, j);
  }

  /** The table after `interpolate(axis=1)`. */
  function FillTable(t: CollisionTable): (f: CollisionTable)
    ensures f.temperatures == t.temperatures && |f.rows| == |t.rows|
    ensures forall i :: 0 <= i < |f.rows| ==> f.rows[i] == t.rows[i].(rates := FillRow(t.rows[i].rates))
  {
    t.(rows := seq(|t.rows|, i requires 0 <= i < |t.rows| => t.rows[i].(rates := FillRow(t.rows[i].rates))))
  }

  /** Column `j` has a value in every row. */
  predicate Complete(t: CollisionTable, j: nat)
    requires WellFormed(t) && j < |t.temperatures|
  {
    forall i :: 0 <= i < |t.rows| ==> t.rows[i].rates[j].Some?
  }

  /** The positions among the first `n` columns that are complete, in order. */
  function CompleteColumns(t: CollisionTable, n: nat): (cols: seq<nat>)
    requires WellFormed(t) && n <= |t.temperatures|
    ensures forall k :: 0 <= k < |cols| ==> cols[k] < n
    ensures forall k, l :: 0 <= k < l < |cols| ==> cols[k] < cols[l]
    ensures forall j :: 0 <= j < n ==> (j in cols <==> Complete(t, j))
  {
    if n == 0 then []
    else if Complete(t, n - 1) then CompleteColumns(t, n - 1) + [n - 1]
    else CompleteColumns(t, n - 1)
  }

  /** The cells of `s` at positions `cols`. */
  function Select<T>(s: seq<T>, cols: seq<nat>): (r: seq<T>)
    requires forall k :: 0 <= k < |cols| ==> cols[k] < |s|
    ensures |r| == |cols| && forall k :: 0 <= k < |cols| ==> r[k] == s[cols[k]]
  {
    seq(|cols|, k requires 0 <= k < |cols| => s[cols[k]])
  }

  /** `dropna(axis=1)`: keep the complete columns only. */
  function DropIncomplete(t: CollisionTable): (d: CollisionTable)
    requires WellFormed(t)
    ensures WellFormed(d) && |d.rows| == |t.rows|
    ensures forall i :: 0 <= i < |t.rows| ==>
      d.rows[i].nu == t.rows[i].nu && d.rows[i].nl == t.rows[i].nl && d.rows[i].collider == t.rows[i].collider
    ensures forall i, k :: 0 <= i < |d.rows| && 0 <= k < |d.temperatures| ==> d.rows[i].rates[k].Some?
    ensures forall j :: 0 <= j < |t.temperatures| && Complete(t, j) ==> t.temperatures[j] in d.temperatures
    ensures forall k :: 0 <= k < |d.temperatures| ==> d.temperatures[k] in t.temperatures
  {
    var cols := CompleteColumns(t, |t.temperatures|);
    var d := CollisionTable(Select(t.temperatures, cols),
      seq(|t.rows|, i requires 0 <= i < |t.rows| => t.rows[i].(rates := Select(t.rows[i].rates, cols))));
    assert forall i, k :: 0 <= i < |d.rows| && 0 <= k < |cols| ==> d.rows[i].rates[k].Some? by {
      forall i, k | 0 <= i < |d.rows| && 0 <= k < |cols| ensures d.rows[i].rates[k].Some? {
        assert cols[k] in cols;
        assert Complete(t, cols[k]);
      }
    }
    assert forall j :: 0 <= j < |t.temperatures| && Complete(t, j) ==> t.temperatures[j] in d.temperatures by {
      forall j | 0 <= j < |t.temperatures| && Complete(t, j) ensures t.temperatures[j] in d.temperatures {
        assert j in cols;
        var k :| 0 <= k < |cols| && cols[k] == j;
        assert d.temperatures[k] == t.temperatures[j];
      }
    }
    d
  }

  /** `process_collisions(df_collisions)`: the rows stay, each with one
      defined rate per remaining temperature, all of them temperatures of the
      input. */
  function ProcessCollisions(t: CollisionTable): (r: CollisionTable)
    requires WellFormed(t)
    ensures WellFormed(r) && |r.rows| == |t.rows|
    ensures forall i, k :: 0 <= i < |r.rows| && 0 <= k < |r.temperatures| ==> r.rows[i].rates[k].Some?
    ensures forall k :: 0 <= k < |r.temperatures| ==> r.temperatures[k] in t.temperatures
  {
    DropIncomplete(FillTable(t))
  }

  /** The result is rectangular and every one of its cells is defined; rows
      keep their order and their keys. */
  lemma ProcessedDefined(t: CollisionTable)
    requires WellFormed(t)
    ensures WellFormed(ProcessCollisions(t))
    ensures |ProcessCollisions(t).rows| == |t.rows|
    ensures forall i :: 0 <= i < |t.rows| ==>
      var row := ProcessCollisions(t).rows[i];
      row.nu == t.rows[i].nu && row.nl == t.rows[i].nl && row.collider == t.rows[i].collider
    ensures forall i, k :: 0 <= i < |t.rows| && 0 <= k < |ProcessCollisions(t).temperatures| ==>
      ProcessCollisions(t).rows[i].rates[k].Some?
  {
    var f := FillTable(t);
    var cols := CompleteColumns(f, |f.temperatures|);
    forall i, k | 0 <= i < |t.rows| && 0 <= k < |cols|
      ensures ProcessCollisions(t).rows[i].rates[k].Some?
    {
      assert cols[k] in cols;
      assert Complete(f, cols[k]);
    }
  }

  /** A column survives exactly when interpolation leaves no row undefined
      there; the surviving columns keep their order, so the temperatures stay
      ascending. */
  lemma ColumnSurvives(t: CollisionTable)
    requires WellFormed(t) && Ascending(t.temperatures)
    ensures Ascending(ProcessCollisions(t).temperatures)
    ensures forall j :: 0 <= j < |t.temperatures| ==>
      (t.temperatures[j] in ProcessCollisions(t).temperatures <==>
       forall i :: 0 <= i < |t.rows| ==> FillRow(t.rows[i].rates)[j].Some?)
  {
    var f := FillTable(t);
    assert ProcessCollisions(t) == DropIncomplete(f);
    forall j | 0 <= j < |t.temperatures|
      ensures t.temperatures[j] in ProcessCollisions(t).temperatures <==>
        forall i :: 0 <= i < |t.rows| ==> FillRow(t.rows[i].rates)[j].Some?
    {
      ColumnSurvivesAt(f, j);
    }
  }

  /** In a table with ascending temperatures, `dropna` keeps a column exactly
      when it is complete. */
  lemma ColumnSurvivesAt(f: CollisionTable, j: nat)
    requires WellFormed(f) && Ascending(f.temperatures) && j < |f.temperatures|
    ensures f.temperatures[j] in DropIncomplete(f).temperatures <==> Complete(f, j)
  {
    var cols := CompleteColumns(f, |f.temperatures|);
    var d := DropIncomplete(f);
    if f.temperatures[j] in d.temperatures {
      var k :| 0 <= k < |d.temperatures| && d.temperatures[k] == f.temperatures[j];
      assert d.temperatures[k] == f.temperatures[cols[k]];
      assert cols[k] == j;
      assert cols[k] in cols;
    }
  }

  /** Every surviving cell is the interpolated cell of its column. */
  lemma SurvivingCells(t: CollisionTable)
    requires WellFormed(t)
    ensures forall k :: 0 <= k < |ProcessCollisions(t).temperatures| ==>
      exists j :: (0 <= j < |t.temperatures| && ProcessCollisions(t).temperatures[k] == t.temperatures[j] &&
        forall i :: 0 <= i < |t.rows| ==> ProcessCollisions(t).rows[i].rates[k] == FillRow(t.rows[i].rates)[j])
  {
    var f := FillTable(t);
    var cols := CompleteColumns(f, |f.temperatures|);
    var r := ProcessCollisions(t);
    forall k | 0 <= k < |r.temperatures|
      ensures exists j :: (0 <= j < |t.temperatures| && r.temperatures[k] == t.temperatures[j] &&
        forall i :: 0 <= i < |t.rows| ==> r.rows[i].rates[k] == FillRow(t.rows[i].rates)[j])
    {
      assert r.temperatures[k] == t.temperatures[cols[k]];
    }
  }

  /** A row whose every value up to column `j`, or from column `j` on, is
      undefined loses column `j`: edge gaps are dropped, never filled. */
  lemma EdgeGapDropsColumn(t: CollisionTable, i: nat, j: nat)
    requires WellFormed(t) && Ascending(t.temperatures)
    requires i < |t.rows| && j < |t.temperatures|
    requires (forall m :: 0 <= m <= j ==> t.rows[i].rates[m].None?) ||
             (forall m :: j <= m < |t.temperatures| ==> t.rows[i].rates[m].None?)
    ensures t.temperatures[j] !in ProcessCollisions(t).temperatures
  {
    EdgeGapsStay(t.rows[i].rates, j);
    ColumnSurvives(t);
  }

  /** `CompleteColumns` of a table without gaps is every column. */
  lemma {:induction false} AllColumnsComplete(t: CollisionTable, n: nat)
    requires WellFormed(t) && n <= |t.temperatures|
    requires forall j :: 0 <= j < n ==> Complete(t, j)
    ensures CompleteColumns(t, n) == seq(n, k => k)
  {
    if n > 0 {
      AllColumnsComplete(t, n - 1);
      assert seq(n, k => k) == seq(n - 1, k => k) + [n - 1];
    }
  }

  /** A table without gaps comes back unchanged. */
  lemma NoGapsUnchanged(t: CollisionTable)
    requires WellFormed(t)
    requires forall i, j :: 0 <= i < |t.rows| && 0 <= j < |t.rows[i].rates| ==> t.rows[i].rates[j].Some?
    ensures ProcessCollisions(t) == t
  {
    var f := FillTable(t);
    forall i | 0 <= i < |t.rows| ensures FillRow(t.rows[i].rates) == t.rows[i].rates {
      var r := t.rows[i].rates;
      assert forall j :: 0 <= j < |r| ==> FillRow(r)[j] == r[j];
    }
    assert f.rows == t.rows;
    AllColumnsComplete(f, |f.temperatures|);
    var cols := seq(|t.temperatures|, k => k);
    assert Select(t.temperatures, cols) == t.temperatures;
    forall i | 0 <= i < |t.rows| ensures Select(t.rows[i].rates, cols) == t.rows[i].rates {
    }
  }

  /** Processing twice is processing once. */
  lemma Idempotent(t: CollisionTable)
    requires WellFormed(t)
    ensures WellFormed(ProcessCollisions(t))
    ensures ProcessCollisions(ProcessCollisions(t)) == ProcessCollisions(t)
  {
    ProcessedDefined(t);
    NoGapsUnchanged(ProcessCollisions(t));
  }

  /** A single interior gap between 10 and 30 is filled with 20. */
  lemma MidpointExample()
    ensures FillRow([Some(10.0), None, Some(30.0)]) == [Some(10.0), Some(20.0), Some(30.0)]
  {
    var r := [Some(10.0), None, Some(30.0)];
    assert PrevKnown(r, 1) == Some(0);
    assert NextKnown(r, 2) == Some(2);
    assert FillAt(r, 1) == Some(20.0);
  }
}

=== FILE: lines.dfy ===
/** `read_lines`: locating the one radiative-transition file of a species
    and turning it into a table of columns.

    A line file is given as what the reader looks at: its first line (which
    carries the row count after a `#`), the whitespace tokens of its header
    line, and the whitespace tokens of each data line that follows, comment
    lines already dropped. */
module Lines {
  import opened Common
  import opened Text
  import Files

  /** A table column with the dtype pandas gives it: `int64`, `float64` or `object` (text). */
  datatype Column =
    | IntColumn(ints: seq<int>)
    | RealColumn(reals: seq<real>)
    | TextColumn(texts: seq<string>)

  function Height(c: Column): nat
  {
    match c
    case IntColumn(xs) => |xs|
    case RealColumn(xs) => |xs|
    case TextColumn(xs) => |xs|
  }

  datatype LineFile = LineFile(firstLine: string, header: seq<string>, rows: seq<seq<string>>)

  /** A table: one label per column, columns listed left to right. */
  datatype LineTable = LineTable(labels: seq<string>, columns: seq<Column>)

  /** One label per column and `n` cells in every column. */
  predicate Shaped(t: LineTable, n: nat)
  {
    |t.labels| == |t.columns| && forall k :: 0 <= k < |t.columns| ==> Height(t.columns[k]) == n
  }

  /** Every column has as many cells as the first: a rectangular table. */
  predicate WellFormed(t: LineTable)
  {
    |t.labels| == |t.columns| &&
    forall k :: 0 <= k < |t.columns| ==> Height(t.columns[k]) == Height(t.columns[0])
  }

  /** Position of the first column labelled `name`. */
  function IndexOf(labels: seq<string>, name: string): (r: Option<nat>)
    ensures r.None? <==> name !in labels
    ensures r.Some? ==> r.value < |labels| && labels[r.value] == name
    ensures r.Some? ==> forall j :: 0 <= j < r.value ==> labels[j] != name
  {
    if labels == [] then None
    else if labels[0] == name then Some(0)
    else match IndexOf(labels[1..], name)
      case None => None
      case Some(k) => Some(k + 1)
  }

  // ---------------------------------------------------------------------
  // Reading the table
  // ---------------------------------------------------------------------

  /** `int(first_line.split('#')[1].replace(' ', ''))`: the integer written,
      spaces aside, between the first `#` and the next one (or the end of the
      line); `None` where Python raises, which includes a line without `#`. */
  function RowCount(firstLine: string): (r: Option<int>)
    ensures '#' !in firstLine ==> r.None?
    ensures '#' in firstLine ==>
      var k := FindFirst(firstLine, {'#'});
      var after := firstLine[k + 1..];
      r == ParseInt(Remove(after[..FindFirst(after, {'#'})], ' '))
  {
    var parts := Split(firstLine, '#');
    SplitSeveral(firstLine, '#');
    if |parts| < 2 then None
    else
      var k := FindFirst(firstLine, {'#'});
      SplitAtFirst(firstLine, '#');
      SplitAtFirst(firstLine[k + 1..], '#');
      assert parts[1] == parts[1..][0];
      ParseInt(Remove(parts[1], ' '))
  }

  /** A line whose text after the first `#` is a printed count declares that count. */
  lemma RowCountOfPrinted(prefix: string, n: int)
    requires '#' !in prefix
    ensures RowCount(prefix + "#" + ShowInt(n)) == Some(n)
  {
    var line := prefix + "#" + ShowInt(n);
    var parts := Split(line, '#');
    SplitJoin(line, '#');
    SplitOnFirst(prefix, ShowInt(n));
    assert ' ' !in ShowInt(n) by {
      if ' ' in ShowInt(n) {
        var k :| 0 <= k < |ShowInt(n)| && ShowInt(n)[k] == ' ';
        DigitsOrSign(n, k);
      }
    }
    ParseShowInt(n);
  }

  lemma DigitsOrSign(n: int, k: nat)
    requires k < |ShowInt(n)|
    ensures ShowInt(n)[k] == '-' || IsDigit(ShowInt(n)[k])
  {
    if n < 0 && k > 0 {
      assert ShowInt(n)[k] == Decimal(-n)[k - 1];
    }
  }

  lemma {:induction false} SplitOnFirst(prefix: string, rest: string)
    requires '#' !in prefix
    requires '#' !in rest
    ensures Split(prefix + "#" + rest, '#') == [prefix, rest]
  {
    if prefix == [] {
      assert ("#" + rest)[1..] == rest;
      assert Split(rest, '#') == [rest] by { SplitNoSep(rest, '#'); }
    } else {
      assert (prefix + "#" + rest)[1..] == prefix[1..] + "#" + rest;
      SplitOnFirst(prefix[1..], rest);
      assert prefix == [prefix[0]] + prefix[1..];
    }
  }

  lemma {:induction false} SplitNoSep(s: string, sep: char)
    requires sep !in s
    ensures Split(s, sep) == [s]
  {
    if s != [] {
      SplitNoSep(s[1..], sep);
      assert s == [s[0]] + s[1..];
    }
  }

  /** `read_csv`'s dtype for a column of tokens: integers if every token is one,
      else floats if every token is one, else text. */
  function InferColumn(cells: seq<string>): (c: Column)
    ensures Height(c) == |cells|
    ensures c.IntColumn? <==> forall i :: 0 <= i < |cells| ==> ParseInt(cells[i]).Some?
    ensures c.IntColumn? ==> forall i :: 0 <= i < |cells| ==> ParseInt(cells[i]) == Some(c.ints[i])
    ensures c.RealColumn? ==> forall i :: 0 <= i < |cells| ==> ParseReal(cells[i]) == Some(c.reals[i])
    ensures c.TextColumn? ==> c.texts == cells && exists i :: 0 <= i < |cells| && ParseReal(cells[i]).None?
  {
    if forall i :: 0 <= i < |cells| ==> ParseInt(cells[i]).Some? then
      IntColumn(seq(|cells|, i requires 0 <= i < |cells| => ParseInt(cells[i]).value))
    else if forall i :: 0 <= i < |cells| ==> ParseReal(cells[i]).Some? then
      RealColumn(seq(|cells|, i requires 0 <= i < |cells| => ParseReal(cells[i]).value))
    else TextColumn(cells)
  }

  /** Column `k` of rows given as token lists. */
  function ColumnCells(rows: seq<seq<string>>, k: nat): (cells: seq<string>)
    requires forall i :: 0 <= i < |rows| ==> k < |rows[i]|
    ensures |cells| == |rows|
    ensures forall i :: 0 <= i < |rows| ==> cells[i] == rows[i][k]
  {
    seq(|rows|, i requires 0 <= i < |rows| => rows[i][k])
  }

  /** The columns `read_csv` builds from rows that all have `width` tokens. */
  function ReadColumns(rows: seq<seq<string>>, width: nat): (cols: seq<Column>)
    requires forall i :: 0 <= i < |rows| ==> |rows[i]| == width
    ensures |cols| == width
    ensures forall k :: 0 <= k < width ==> cols[k] == InferColumn(ColumnCells(rows, k))
    ensures forall k :: 0 <= k < width ==> Height(cols[k]) == |rows|
  {
    seq(width, k requires 0 <= k < width => InferColumn(ColumnCells(rows, k)))
  }

  /** One pass of the `for col in select_dtypes(include="object")` loop:
      strip every `;` from a text column, then make it an integer column if
      every stripped cell is an integer. Other columns are left alone. */
  function CleanColumn(c: Column): (r: Column)
    ensures Height(r) == Height(c)
    ensures !c.TextColumn? ==> r == c
    ensures c.TextColumn? ==> !r.RealColumn?
    ensures c.TextColumn? ==>
      (r.IntColumn? <==> forall i :: 0 <= i < |c.texts| ==> ParseInt(Remove(c.texts[i], ';')).Some?)
    ensures c.TextColumn? && r.IntColumn? ==>
      forall i :: 0 <= i < |c.texts| ==> ParseInt(Remove(c.texts[i], ';')) == Some(r.ints[i])
    ensures c.TextColumn? && r.TextColumn? ==>
      |r.texts| == |c.texts| && forall i :: 0 <= i < |c.texts| ==> r.texts[i] == Remove(c.texts[i], ';')
    ensures r.TextColumn? ==> forall i :: 0 <= i < |r.texts| ==> ';' !in r.texts[i]
  {
    match c
    case TextColumn(ts) =>
      var stripped := seq(|ts|, i requires 0 <= i < |ts| => Remove(ts[i], ';'));
      assert forall i :: 0 <= i < |ts| ==> stripped[i] == Remove(ts[i], ';');
      if forall i :: 0 <= i < |stripped| ==> ParseInt(stripped[i]).Some? then
        IntColumn(seq(|stripped|, i requires 0 <= i < |stripped| => ParseInt(stripped[i]).value))
      else TextColumn(stripped)
    case _ => c
  }

  /** A column holding `path` on each of `n` rows: `df_lines['file'] = filename`. */
  function FileColumn(path: string, n: nat): (c: Column)
    ensures Height(c) == n
    ensures c.TextColumn? && forall i :: 0 <= i < n ==> c.texts[i] == path
  {
    TextColumn(seq(n, _ => path))
  }

  /** Assigning a column by label: every column already labelled `name` is
      replaced, otherwise the column is appended on the right. */
  function SetColumn(t: LineTable, name: string, c: Column): (r: LineTable)
    requires |t.labels| == |t.columns|
    ensures name in r.labels
    ensures |r.labels| == |r.columns|
    ensures name in t.labels ==> r.labels == t.labels
    ensures name !in t.labels ==> r.labels == t.labels + [name]
    ensures forall k :: 0 <= k < |r.labels| ==> r.columns[k] == (if r.labels[k] == name then c else t.columns[k])
  {
    if name in t.labels then
      LineTable(t.labels, seq(|t.columns|, k requires 0 <= k < |t.columns| =>
        if t.labels[k] == name then c else t.columns[k]))
    else LineTable(t.labels + [name], t.columns + [c])
  }

  /** The data rows `read_csv(..., nrows=n)` takes: the first `n`, or all if there are fewer. */
  function Kept(f: LineFile, n: nat): (rows: seq<seq<string>>)
    ensures |rows| == Min(n, |f.rows|)
    ensures n <= |f.rows| ==> |rows| == n
  {
    f.rows[..Min(n, |f.rows|)]
  }

  /** How many leading cells `read_csv` takes as the row index: as many as
      the first data line has beyond the header's labels, none if it has no
      more. */
  function IndexWidth(f: LineFile): (e: nat)
    ensures e > 0 <==> f.rows != [] && |f.rows[0]| > |f.header|
    ensures e > 0 ==> |f.rows[0]| == |f.header| + e
  {
    if f.rows != [] && |f.rows[0]| > |f.header| then |f.rows[0]| - |f.header| else 0
  }

  /** The data rows without their first `e` cells, the index. */
  function Fields(rows: seq<seq<string>>, e: nat): (r: seq<seq<string>>)
    requires forall i :: 0 <= i < |rows| ==> |rows[i]| >= e
    ensures |r| == |rows|
    ensures forall i :: 0 <= i < |rows| ==> |r[i]| == |rows[i]| - e && r[i] == rows[i][e..]
    ensures e == 0 ==> r == rows
  {
    seq(|rows|, i requires 0 <= i < |rows| => rows[i][e..])
  }

  /** The table built from the header and the kept rows: labels shifted left
      with `"unit"` appended, text columns cleaned, the path tagged. */
  function Assemble(header: seq<string>, rows: seq<seq<string>>, path: string): (t: LineTable)
    requires header != []
    requires forall i :: 0 <= i < |rows| ==> |rows[i]| == |header|
    ensures Shaped(t, |rows|)
    ensures "file" in t.labels && |header| <= |t.labels| <= |header| + 1
    ensures t.labels[..|header|] == header[1..] + ["unit"]
    ensures forall k :: 0 <= k < |t.labels| && t.labels[k] == "file" ==> t.columns[k] == FileColumn(path, |rows|)
    ensures forall k :: 0 <= k < |header| && t.labels[k] != "file" ==>
      t.columns[k] == CleanColumn(InferColumn(ColumnCells(rows, k)))
  {
    var columns := ReadColumns(rows, |header|);
    var cleaned := seq(|columns|, k requires 0 <= k < |columns| => CleanColumn(columns[k]));
    SetColumn(LineTable(header[1..] + ["unit"], cleaned), "file", FileColumn(path, |rows|))
  }

  /** Reading one line file found at `path`, as `read_lines` does it. */
  function TableOf(f: LineFile, path: string): (r: Result<LineTable>)
    ensures RowCount(f.firstLine).None? ==> r == Err(BadRowCount(path))
    ensures RowCount(f.firstLine).Some? && RowCount(f.firstLine).value < 0 ==> r == Err(NegativeRowCount(path))
    ensures r.Ok? <==>
      && RowCount(f.firstLine).Some? && RowCount(f.firstLine).value >= 0
      && f.header != []
      && forall i :: 0 <= i < |Kept(f, RowCount(f.firstLine).value)| ==>
           |Kept(f, RowCount(f.firstLine).value)[i]| == |f.header| + IndexWidth(f)
    ensures r.Ok? ==>
      r.value == Assemble(f.header, Fields(Kept(f, RowCount(f.firstLine).value), IndexWidth(f)), path)
    ensures r.Ok? ==> "file" in r.value.labels && forall k :: 0 <= k < |r.value.labels| && r.value.labels[k] == "file" ==>
      r.value.columns[k] == FileColumn(path, Min(RowCount(f.firstLine).value, |f.rows|))
  {
    match RowCount(f.firstLine)
    case None => Err(BadRowCount(path))
    case Some(n) =>
      if n < 0 then Err(NegativeRowCount(path))
      else if f.header == [] then Err(EmptyTable(path))
      else
        var rows := Kept(f, n);
        var e := IndexWidth(f);
        if exists i :: 0 <= i < |rows| && |rows[i]| != |f.header| + e then Err(MalformedRow(path))
        else Ok(Assemble(f.header, Fields(rows, e), path))
  }

  /** With one cell more per row than the header has labels, the first cell
      is the index and the labels go with the cells after it: column `k`
      holds the `k + 1`-th token of each row. */
  lemma IndexDropped(header: seq<string>, rows: seq<seq<string>>, path: string, k: nat)
    requires header != [] && forall i :: 0 <= i < |rows| ==> |rows[i]| == |header| + 1
    requires k < |header| && Assemble(header, Fields(rows, 1), path).labels[k] != "file"
    ensures Assemble(header, Fields(rows, 1), path).columns[k] ==
      CleanColumn(InferColumn(seq(|rows|, i requires 0 <= i < |rows| => rows[i][k + 1])))
  {
    assert ColumnCells(Fields(rows, 1), k) == seq(|rows|, i requires 0 <= i < |rows| => rows[i][k + 1]);
  }

  /** `read_lines(species)`: exactly one file may match; its table is the result. */
  function ReadLinesSpec(species: seq<string>, glob: string -> seq<string>, read: string -> LineFile)
    : (r: Result<LineTable>)
    ensures r.Ok? ==> |Files.Gathered(species, Files.LinePattern, glob)| == 1 && "file" in r.value.labels
  {
    var names := Files.Gathered(species, Files.LinePattern, glob);
    if |names| == 0 then Err(NoLineFile)
    else if |names| > 1 then Err(SeveralLineFiles)
    else TableOf(read(names[0]), names[0])
  }

  // ---------------------------------------------------------------------
  // The table as the reader updates it in place
  // ---------------------------------------------------------------------

  /** The `df_lines` data frame while `read_lines` relabels and rewrites it. */
  class LineFrame {
    var labels: seq<string>
    var columns: seq<Column>
    const height: nat

    ghost predicate Valid()
      reads this
    {
      Shaped(LineTable(labels, columns), height)
    }

    function Snapshot(): LineTable
      reads this
    {
      LineTable(labels, columns)
    }

    constructor (labels: seq<string>, columns: seq<Column>, height: nat)
      requires Shaped(LineTable(labels, columns), height)
      ensures Valid() && this.labels == labels && this.columns == columns && this.height == height
    {
      this.labels := labels;
      this.columns := columns;
      this.height := height;
    }

    /** `df_lines.columns = list(df_lines.columns[1:]) + ["unit"]`. */
    method ShiftLabels()
      requires Valid() && labels != []
      modifies this
      ensures Valid()
      ensures labels == old(labels)[1..] + ["unit"] && columns == old(columns)
    {
      labels := labels[1..] + ["unit"];
    }

    /** The loop over the text columns, each rewritten in place. */
    method CleanTextColumns()
      requires Valid()
      modifies this
      ensures Valid()
      ensures labels == old(labels)
      ensures |columns| == |old(columns)|
      ensures forall k :: 0 <= k < |columns| ==> columns[k] == CleanColumn(old(columns)[k])
    {
      for k := 0 to |columns|
        invariant labels == old(labels) && |columns| == |old(columns)|
        invariant Valid()
        invariant forall j :: 0 <= j < k ==> columns[j] == CleanColumn(old(columns)[j])
        invariant forall j :: k <= j < |columns| ==> columns[j] == old(columns)[j]
      {
        if columns[k].TextColumn? {
          columns := columns[k := CleanColumn(columns[k])];
        }
      }
    }

    /** `df_lines['file'] = path`. */
    method TagFile(path: string)
      requires Valid()
      modifies this
      ensures Valid()
      ensures Snapshot() == SetColumn(old(Snapshot()), "file", FileColumn(path, height))
    {
      var t := SetColumn(Snapshot(), "file", FileColumn(path, height));
      labels, columns := t.labels, t.columns;
    }
  }

  /** The body of the `for filename in list_filenames` loop for one file. */
  method ReadLineFile(f: LineFile, path: string) returns (r: Result<LineTable>)
    ensures r == TableOf(f, path)
  {
    var count := RowCount(f.firstLine);
    if count.None? {
      return Err(BadRowCount(path));
    }
    var n := count.value;
    if n < 0 {
      return Err(NegativeRowCount(path));
    }
    if f.header == [] {
      return Err(EmptyTable(path));
    }
    var rows := Kept(f, n);
    var e := IndexWidth(f);
    if exists i :: 0 <= i < |rows| && |rows[i]| != |f.header| + e {
      return Err(MalformedRow(path));
    }
    var fields := Fields(rows, e);
    var columns := ReadColumns(fields, |f.header|);
    var frame := new LineFrame(f.header, columns, |fields|);
    frame.ShiftLabels();
    frame.CleanTextColumns();
    assert frame.columns == seq(|columns|, k requires 0 <= k < |columns| => CleanColumn(columns[k]));
    frame.TagFile(path);
    assert TableOf(f, path) == Ok(Assemble(f.header, fields, path));
    r := Ok(frame.Snapshot());
  }

  /** `read_lines(species)`. */
  method ReadLines(species: seq<string>, glob: string -> seq<string>, read: string -> LineFile)
    returns (r: Result<LineTable>)
    ensures r == ReadLinesSpec(species, glob, read)
  {
    var names := Files.Gather(species, Files.LinePattern, glob);
    if |names| == 0 {
      return Err(NoLineFile);
    }
    if |names| > 1 {
      return Err(SeveralLineFiles);
    }
    r := ReadLineFile(read(names[0]), names[0]);
  }

  // ---------------------------------------------------------------------
  // What the reader promises
  // ---------------------------------------------------------------------

  /** The file count decides the error: none found, more than one found,
      or exactly one, which is then read. */
  lemma ReadLinesFileCount(species: seq<string>, glob: string -> seq<string>, read: string -> LineFile)
    ensures ReadLinesSpec(species, glob, read) == Err(NoLineFile) <==>
      forall k :: 0 <= k < |species| ==> glob(Files.LinePattern(species[k])) == []
    ensures ReadLinesSpec(species, glob, read) == Err(SeveralLineFiles) <==>
      |Files.Gathered(species, Files.LinePattern, glob)| > 1
    ensures var names := Files.Gathered(species, Files.LinePattern, glob);
      |names| == 1 ==> ReadLinesSpec(species, glob, read) == TableOf(read(names[0]), names[0])
    ensures ReadLinesSpec(species, glob, read).Ok? ==> |Files.Gathered(species, Files.LinePattern, glob)| == 1
  {
    Files.GatheredEmpty(species, Files.LinePattern, glob);
  }
}

=== FILE: sums.dfy ===
/** Finite sums over sequences, the model of pandas' `.sum()` on a column
    or over a group, and the facts that make such sums independent of order. */
module Sums {

  /** `f(xs[0]) + f(xs[1]) + ...`, and `0.0` for the empty sequence. */
  function Sum<T>(xs: seq<T>, f: T -> real): real
  {
    if xs == [] then 0.0 else f(xs[0]) + Sum(xs[1..], f)
  }

  predicate Distinct<T(==)>(xs: seq<T>)
  {
    forall i, j :: 0 <= i < j < |xs| ==> xs[i] != xs[j]
  }

  lemma {:induction false} SumAppend<T>(xs: seq<T>, ys: seq<T>, f: T -> real)
    ensures Sum(xs + ys, f) == Sum(xs, f) + Sum(ys, f)
  {
    if xs == [] {
      assert xs + ys == ys;
    } else {
      assert (xs + ys)[1..] == xs[1..] + ys;
      SumAppend(xs[1..], ys, f);
    }
  }

  /** Taking one term out of a sum. */
  lemma SumRemove<T>(ys: seq<T>, i: nat, f: T -> real)
    requires i < |ys|
    ensures Sum(ys, f) == f(ys[i]) + Sum(ys[..i] + ys[i + 1..], f)
  {
    var head, tail := ys[..i], [ys[i]] + ys[i + 1..];
    assert head + tail == ys;
    SumAppend(head, tail, f);
    assert tail[0] == ys[i] && tail[1..] == ys[i + 1..];
    assert Sum(tail, f) == f(ys[i]) + Sum(ys[i + 1..], f);
    SumAppend(head, ys[i + 1..], f);
  }

  /** Taking one element out of a sequence takes it out of its multiset. */
  lemma MultisetRemove<T>(ys: seq<T>, i: nat)
    requires i < |ys|
    ensures multiset(ys[..i] + ys[i + 1..]) == multiset(ys) - multiset{ys[i]}
  {
    assert ys == ys[..i] + [ys[i]] + ys[i + 1..];
  }

  /** A sum depends only on the multiset of its terms, not on their order. */
  lemma {:induction false} SumPermutation<T>(xs: seq<T>, ys: seq<T>, f: T -> real)
    requires multiset(xs) == multiset(ys)
    ensures Sum(xs, f) == Sum(ys, f)
  {
    if xs != [] {
      var x := xs[0];
      assert x in ys by {
        assert x in multiset(ys);
      }
      var i :| 0 <= i < |ys| && ys[i] == x;
      var rest := ys[..i] + ys[i + 1..];
      MultisetRemove(ys, i);
      assert xs == [x] + xs[1..];
      assert multiset(xs[1..]) == multiset(rest);
      SumPermutation(xs[1..], rest, f);
      SumRemove(ys, i, f);
    } else {
      assert |ys| == |multiset(ys)| == 0;
    }
  }

  /** Sums of two term functions that agree on every element are equal. */
  lemma {:induction false} SumCongruence<T>(xs: seq<T>, f: T -> real, g: T -> real)
    requires forall i :: 0 <= i < |xs| ==> f(xs[i]) == g(xs[i])
    ensures Sum(xs, f) == Sum(xs, g)
  {
    if xs != [] {
      SumCongruence(xs[1..], f, g);
    }
  }

  /** A sum of pointwise sums is the sum of the two sums. */
  lemma {:induction false} SumAdd<T>(xs: seq<T>, f: T -> real, g: T -> real, h: T -> real)
    requires forall i :: 0 <= i < |xs| ==> f(xs[i]) == g(xs[i]) + h(xs[i])
    ensures Sum(xs, f) == Sum(xs, g) + Sum(xs, h)
  {
    if xs != [] {
      SumAdd(xs[1..], f, g, h);
    }
  }

  /** Over a duplicate-free sequence, a term function that vanishes everywhere
      except at `y` sums to its value at `y` (or to zero when `y` is absent). */
  lemma {:induction false} SumSingle<T>(xs: seq<T>, f: T -> real, y: T)
    requires Distinct(xs)
    requires forall i :: 0 <= i < |xs| && xs[i] != y ==> f(xs[i]) == 0.0
    ensures Sum(xs, f) == if y in xs then f(y) else 0.0
  {
    if xs != [] {
      SumSingle(xs[1..], f, y);
      if xs[0] == y {
        assert y !in xs[1..] by {
          forall k | 1 <= k < |xs| ensures xs[k] != y {
            assert xs[0] != xs[k];
          }
        }
      }
    }
  }

  /** A constant factor comes out of a sum. */
  lemma {:induction false} SumScale<T>(xs: seq<T>, f: T -> real, g: T -> real, c: real)
    requires forall i :: 0 <= i < |xs| ==> f(xs[i]) == c * g(xs[i])
    ensures Sum(xs, f) == c * Sum(xs, g)
  {
    if xs != [] {
      SumScale(xs[1..], f, g, c);
    }
  }

  /** A sum whose every term is zero. */
  lemma {:induction false} SumZero<T>(xs: seq<T>, f: T -> real)
    requires forall i :: 0 <= i < |xs| ==> f(xs[i]) == 0.0
    ensures Sum(xs, f) == 0.0
  {
    if xs != [] {
      SumZero(xs[1..], f);
    }
  }

  /** `h` with its first argument fixed to `x`. */
  function Slice<A, B>(h: (A, B) -> real, x: A): B -> real
  {
    y => h(x, y)
  }

  /** `h` with its second argument fixed to `y`. */
  function Flip<A, B>(h: (A, B) -> real, y: B): A -> real
  {
    x => h(x, y)
  }

  /** The inner sums of a double sum, one per element of `xs`. */
  function Inner<A, B>(ys: seq<B>, h: (A, B) -> real): A -> real
  {
    x => Sum(ys, Slice(h, x))
  }

  /** The inner sums of a double sum taken the other way round. */
  function Outer<A, B>(xs: seq<A>, h: (A, B) -> real): B -> real
  {
    y => Sum(xs, Flip(h, y))
  }

  /** The two orders of a double sum agree. */
  lemma {:induction false} SumSwap<A, B>(xs: seq<A>, ys: seq<B>, h: (A, B) -> real)
    ensures Sum(xs, Inner(ys, h)) == Sum(ys, Outer(xs, h))
  {
    if xs != [] {
      SumSwap(xs[1..], ys, h);
      var x := xs[0];
      forall i | 0 <= i < |ys|
        ensures Outer(xs, h)(ys[i]) == Slice(h, x)(ys[i]) + Outer(xs[1..], h)(ys[i])
      {
      }
      SumAdd(ys, Outer(xs, h), Slice(h, x), Outer(xs[1..], h));
    } else {
      SumZero(ys, Outer(xs, h));
    }
  }
}

=== FILE: text.dfy ===
/** The string handling the readers rely on: whitespace splitting
    (`re.split(r'\s+', ...)` with empty pieces dropped), `str.split(sep)`,
    `str.replace(c, "")`, and Python's `int()` and `float()` on text. */
module Text {
  import opened Common

  /** The ASCII characters Python counts as whitespace (`str.isspace`, `\s`,
      the stripping of `int()` and `float()`): tab, line feed, vertical tab,
      form feed, carriage return, the four separators U+001C to U+001F, and space. */
  predicate IsSpace(c: char) {
    ('\t' <= c <= '\r') || ('\U{001C}' <= c <= '\U{001F}') || c == ' '
  }

  predicate IsDigit(c: char) { '0' <= c <= '9' }

  predicate NoSpace(s: string) { forall i :: 0 <= i < |s| ==> !IsSpace(s[i]) }

  predicate AllDigits(s: string) { forall i :: 0 <= i < |s| ==> IsDigit(s[i]) }

  function DigitValue(c: char): nat
    requires IsDigit(c)
  {
    (c as int - '0' as int) as nat
  }

  function DigitChar(d: nat): (c: char)
    requires d < 10
    ensures IsDigit(c) && DigitValue(c) == d
  {
    ('0' as int + d) as char
  }

  // ---------------------------------------------------------------------
  // Removing one character everywhere: `str.replace(c, "")`
  // ---------------------------------------------------------------------

  /** `s` with every occurrence of `c` taken out, the other characters kept in order. */
  function Remove(s: string, c: char): (r: string)
    ensures c !in r
    ensures |r| <= |s|
    ensures c !in s ==> r == s
    ensures forall d :: d != c ==> multiset(r)[d] == multiset(s)[d]
  {
    if s == [] then []
    else
      assert s == [s[0]] + s[1..];
      (if s[0] == c then [] else [s[0]]) + Remove(s[1..], c)
  }

  // ---------------------------------------------------------------------
  // `str.split(sep)` and its inverse `sep.join(parts)`
  // ---------------------------------------------------------------------

  /** The pieces of `s` between occurrences of `sep`; there is always at least one. */
  function Split(s: string, sep: char): (r: seq<string>)
    ensures |r| >= 1
    ensures forall i :: 0 <= i < |r| ==> sep !in r[i]
  {
    if s == [] then [[]]
    else
      var rest := Split(s[1..], sep);
      if s[0] == sep then [[]] + rest
      else [[s[0]] + rest[0]] + rest[1..]
  }

  function Join(parts: seq<string>, sep: char): string
    requires |parts| >= 1
  {
    if |parts| == 1 then parts[0] else parts[0] + [sep] + Join(parts[1..], sep)
  }

  /** Splitting loses nothing: joining the pieces with the separator gives the text back. */
  lemma {:induction false} SplitJoin(s: string, sep: char)
    ensures Join(Split(s, sep), sep) == s
  {
    if s != [] {
      var rest := Split(s[1..], sep);
      SplitJoin(s[1..], sep);
      if s[0] == sep {
        assert Split(s, sep) == [[]] + rest;
        assert Join(Split(s, sep), sep) == [] + [sep] + Join(rest, sep);
      } else {
        var r := [[s[0]] + rest[0]] + rest[1..];
        assert Split(s, sep) == r;
        if |rest| == 1 {
          assert Join(r, sep) == [s[0]] + rest[0];
        } else {
          assert r[1..] == rest[1..];
          assert Join(r, sep) == [s[0]] + rest[0] + [sep] + Join(rest[1..], sep);
          assert Join(rest, sep) == rest[0] + [sep] + Join(rest[1..], sep);
        }
      }
    }
  }

  /** The first piece is the text before the first `sep`; after it come the
      pieces of the text that follows that `sep`. */
  lemma {:induction false} SplitAtFirst(s: string, sep: char)
    ensures var k := FindFirst(s, {sep});
      Split(s, sep)[0] == s[..k] && (k < |s| ==> Split(s, sep)[1..] == Split(s[k + 1..], sep))
    decreases |s|
  {
    if s != [] && s[0] != sep {
      SplitAtFirst(s[1..], sep);
      var k := FindFirst(s[1..], {sep});
      assert FindFirst(s, {sep}) == k + 1;
      assert s[..k + 1] == [s[0]] + s[1..][..k];
      if k < |s[1..]| {
        assert s[1..][k + 1..] == s[k + 2..];
      }
    }
  }

  /** There is more than one piece exactly when the separator occurs. */
  lemma SplitSeveral(s: string, sep: char)
    ensures |Split(s, sep)| >= 2 <==> sep in s
  {
    SplitAtFirst(s, sep);
    if sep in s {
      assert |Split(s, sep)[1..]| >= 1;
    }
  }

  // ---------------------------------------------------------------------
  // Whitespace tokens: `[w for w in re.split(r'\s+', s) if len(w) > 0]`
  // ---------------------------------------------------------------------

  /** Length of the run of non-space characters that starts `s`. */
  function WordLength(s: string): (n: nat)
    ensures n <= |s|
    ensures forall i :: 0 <= i < n ==> !IsSpace(s[i])
    ensures n == |s| || IsSpace(s[n])
    ensures s != [] && !IsSpace(s[0]) ==> n >= 1
  {
    if s == [] || IsSpace(s[0]) then 0 else 1 + WordLength(s[1..])
  }

  /** The maximal runs of non-space characters of `s`, in order. */
  function Tokens(s: string): (r: seq<string>)
    ensures forall i :: 0 <= i < |r| ==> r[i] != [] && NoSpace(r[i])
    decreases |s|
  {
    if s == [] then []
    else if IsSpace(s[0]) then Tokens(s[1..])
    else
      var n := WordLength(s);
      [s[..n]] + Tokens(s[n..])
  }

  /** `s` with its whitespace taken out. */
  function NonSpace(s: string): string
  {
    if s == [] then [] else (if IsSpace(s[0]) then [] else [s[0]]) + NonSpace(s[1..])
  }

  function Flatten(ss: seq<string>): string
  {
    if ss == [] then [] else ss[0] + Flatten(ss[1..])
  }

  lemma {:induction false} NonSpaceAppend(a: string, b: string)
    ensures NonSpace(a + b) == NonSpace(a) + NonSpace(b)
  {
    if a != [] {
      assert (a + b)[1..] == a[1..] + b;
      NonSpaceAppend(a[1..], b);
    } else {
      assert a + b == b;
    }
  }

  lemma {:induction false} NonSpaceOfWord(w: string)
    requires NoSpace(w)
    ensures NonSpace(w) == w
  {
    if w != [] {
      NonSpaceOfWord(w[1..]);
    }
  }

  /** Tokenising keeps every non-space character, in order, and only those. */
  lemma {:induction false} TokensKeepText(s: string)
    ensures Flatten(Tokens(s)) == NonSpace(s)
    decreases |s|
  {
    if s != [] {
      if IsSpace(s[0]) {
        TokensKeepText(s[1..]);
      } else {
        var n := WordLength(s);
        TokensKeepText(s[n..]);
        assert s == s[..n] + s[n..];
        NonSpaceAppend(s[..n], s[n..]);
        NonSpaceOfWord(s[..n]);
        assert Tokens(s) == [s[..n]] + Tokens(s[n..]);
        assert ([s[..n]] + Tokens(s[n..]))[1..] == Tokens(s[n..]);
      }
    }
  }

  // ---------------------------------------------------------------------
  // Python's `int()` on text
  // ---------------------------------------------------------------------

  function TrimStart(s: string): (r: string)
    ensures r == [] || !IsSpace(r[0])
  {
    if s != [] && IsSpace(s[0]) then TrimStart(s[1..]) else s
  }

  function TrimEnd(s: string): (r: string)
    ensures r == [] || !IsSpace(r[|r| - 1])
  {
    if s != [] && IsSpace(s[|s| - 1]) then TrimEnd(s[..|s| - 1]) else s
  }

  /** `str.strip()`: leading and trailing whitespace removed. */
  function Strip(s: string): string
  {
    TrimEnd(TrimStart(s))
  }

  /** The value of a string of decimal digits, most significant first. */
  function DigitsValue(s: string): nat
    requires AllDigits(s)
  {
    if s == [] then 0 else DigitsValue(s[..|s| - 1]) * 10 + DigitValue(s[|s| - 1])
  }

  /** An optional sign followed by at least one digit. */
  function ParseSigned(t: string): Option<int>
  {
    if t != [] && (t[0] == '-' || t[0] == '+') then
      if |t| > 1 && AllDigits(t[1..]) then
        Some(if t[0] == '-' then -(DigitsValue(t[1..]) as int) else DigitsValue(t[1..]))
      else None
    else if t != [] && AllDigits(t) then Some(DigitsValue(t))
    else None
  }

  /** Python's `int(s)` for a decimal literal: surrounding whitespace is ignored;
      `None` stands for the `ValueError` it raises otherwise. */
  function ParseInt(s: string): Option<int>
  {
    ParseSigned(Strip(s))
  }

  /** The decimal digits of `n`, without leading zeros. */
  function Decimal(n: nat): (s: string)
    ensures s != [] && AllDigits(s)
  {
    if n < 10 then [DigitChar(n)] else Decimal(n / 10) + [DigitChar(n % 10)]
  }

  /** How Python prints an integer. */
  function ShowInt(n: int): (s: string)
    ensures s != [] && !IsSpace(s[0]) && !IsSpace(s[|s| - 1])
  {
    if n < 0 then "-" + Decimal(-n) else Decimal(n)
  }

  lemma {:induction false} DecimalValue(n: nat)
    ensures DigitsValue(Decimal(n)) == n
  {
    if n >= 10 {
      DecimalValue(n / 10);
      var s := Decimal(n);
      assert s[..|s| - 1] == Decimal(n / 10);
    }
  }

  lemma StripUnspaced(s: string)
    requires s != [] && !IsSpace(s[0]) && !IsSpace(s[|s| - 1])
    ensures Strip(s) == s
  {
  }

  /** Reading back a printed integer gives the integer. */
  lemma ParseShowInt(n: int)
    ensures ParseInt(ShowInt(n)) == Some(n)
  {
    StripUnspaced(ShowInt(n));
    if n < 0 {
      DecimalValue(-n);
      assert ShowInt(n)[1..] == Decimal(-n);
    } else {
      DecimalValue(n);
    }
  }

  // ---------------------------------------------------------------------
  // Python's `float()` on text, for finite decimal literals
  // ---------------------------------------------------------------------

  function Pow10(e: int): (r: real)
    ensures r > 0.0
    decreases if e >= 0 then e else -e
  {
    if e == 0 then 1.0
    else if e > 0 then 10.0 * Pow10(e - 1)
    else Pow10(e + 1) / 10.0
  }

  /** Index of the first character of `s` that is one of `marks`, or `|s|`. */
  function FindFirst(s: string, marks: set<char>): (i: nat)
    ensures i <= |s|
    ensures forall k :: 0 <= k < i ==> s[k] !in marks
    ensures i < |s| ==> s[i] in marks
  {
    if s == [] || s[0] in marks then 0 else 1 + FindFirst(s[1..], marks)
  }

  /** `digits[.digits]` or `.digits`: at least one digit in all. */
  function ParseMantissa(m: string): Option<real>
  {
    var p := FindFirst(m, {'.'});
    var whole := m[..p];
    var frac := if p < |m| then m[p + 1..] else [];
    if AllDigits(whole) && AllDigits(frac) && (whole != [] || frac != []) then
      Some(DigitsValue(whole) as real + DigitsValue(frac) as real / Pow10(|frac|))
    else None
  }

  function ParseUnsignedReal(t: string): Option<real>
  {
    var e := FindFirst(t, {'e', 'E'});
    var exponent := if e == |t| then Some(0) else ParseSigned(t[e + 1..]);
    match (ParseMantissa(t[..e]), exponent)
    case (Some(m), Some(x)) => Some(m * Pow10(x))
    case _ => None
  }

  /** Python's `float(s)` for a finite decimal literal with optional sign and
      exponent; `None` stands for the `ValueError` it raises otherwise. */
  function ParseReal(s: string): Option<real>
  {
    var t := Strip(s);
    if t != [] && (t[0] == '-' || t[0] == '+') then
      match ParseUnsignedReal(t[1..])
      case Some(v) => Some(if t[0] == '-' then -v else v)
      case None => None
    else ParseUnsignedReal(t)
  }

  /** A plain string of digits reads as its decimal value through `float()`. */
  lemma DigitsAsReal(t: string)
    requires t != [] && AllDigits(t)
    ensures ParseUnsignedReal(t) == Some(DigitsValue(t) as real)
  {
    assert FindFirst(t, {'e', 'E'}) == |t|;
    assert FindFirst(t, {'.'}) == |t|;
    assert t[..|t|] == t;
    assert Pow10(0) == 1.0;
    assert ParseMantissa(t) == Some(DigitsValue(t) as real);
  }

  /** A printed integer reads back as the same number through `float()`. */
  lemma ParseRealShowInt(n: int)
    ensures ParseReal(ShowInt(n)) == Some(n as real)
  {
    StripUnspaced(ShowInt(n));
    var d := if n < 0 then -n else n;
    var t := Decimal(d);
    DecimalValue(d);
    DigitsAsReal(t);
    if n < 0 {
      assert ShowInt(n)[1..] == t;
    } else {
      assert IsDigit(t[0]);
    }
  }
}
